=== FILE: README.md ===
# KorkiPortal booking core in Dafny

KorkiPortal is a tutoring application. Students book 30-minute lessons with
tutors. A tutor publishes weekly availability windows and may declare ad-hoc
absences ("unavailability"). Both sides study from flashcard sets. This project
models the parts of the application that decide what gets stored and shown.

- **Bookings** (`bookings.dfy`, module `Bookings`): creating a booking and
  cancelling one. The central invariant is that no two CONFIRMED bookings of
  one tutor overlap. The store it acts on is the record in `store.dfy`
  (module `Store`), together with that invariant and the other invariants.
- **Unavailability** (`unavailability.dfy`, module `Exceptions`): adding an
  absence cancels every CONFIRMED booking of that tutor it overlaps.
  Deleting an absence restores nothing.
- **Sessions** (`sessions.dfy`): the student calendar and the tutor dashboard
  merge back-to-back bookings into sessions. The dashboard also keeps only
  today's sessions that are not cancelled.
- **Calendar blocks** (`booking_blocks.dfy`, module `Blocks`): the tutor
  calendar merges bookings into blocks and renders each block as an event
  with a title and tooltip lines.
- **Slot selection** (`slot_selection.dfy`, module `Selection`): which lesson
  modes a tutor offers, and how a range selected in the calendar is cut into
  slots. It also covers the checks made before booking requests are sent,
  and what sending them one by one does to the store.
- **Flashcards** (`study_deck.dfy`, module `Deck`; `flashcard_editor.dfy`,
  module `Editor`):
  - the student's card search, shuffle, carousel and pagination;
  - the tutor's editor, i.e. how the list of sets changes after each action.
- **Profiles and rosters** (`profiles.dfy`, `roster.dfy`):
  - the profile-completeness predicates;
  - the name search and "remove from view" of the student list and the
    tutor list.

Supporting modules:
- `wrappers.dfy`: `Option`.
- `seqs.dfy`: filter, concatenation and a stable insertion sort.
- `runs.dfy`: a sequence cut into maximal runs of chained elements, with
  uniqueness, and a loop that computes them.
- `text.dfy`: ECMAScript trimming, ASCII case mapping, substring search,
  decimal rendering, split and join.
- `clock.dfy`: weekday and "HH:mm" of a millisecond timestamp.

Time is an integer count of milliseconds since 1970-01-01T00:00Z. The server's
and browser's local time zone is a fixed `offset` parameter in milliseconds.
Each handler is a pure function from the store and the request to an
`Outcome`: the HTTP status, the body, and the store afterwards.

Where the code behaves in an unexpected way, the model follows the code:
- The booking handler compares the start's UTC "HH:mm" with both window
  bounds inclusive, against the weekday in local time. This is modelled as
  written. `Bookings.CreateAcceptsStartAtWindowEnd` shows a lesson accepted at
  a window's end that runs 30 minutes past it.
- The application has two definitions of a complete student profile, and they
  disagree (`Profiles.StudentDefinitionsDiffer`).

One place departs from the code: the unavailability handlers read the caller
from a field the login token does not set. Here the caller is a user id
parameter, and the handlers behave as evidently intended (see "Left out").

## Model

| member | source | states |
|---|---|---|
| Bookings.CreateBooking | korepetcyje-app/backend/src/modules/bookings/bookings.controller.js:10-85 | 400 for a missing tutor id or date and for an unparseable date, 404 without a student profile, 400 when no availability row of the start's weekday encloses its "HH:mm", 409 when a CONFIRMED booking of the tutor overlaps the 30-minute lesson, otherwise 201 with a new CONFIRMED booking under the next id, with no subject, mode or address; each code holds exactly in its case, and every refusal leaves the store unchanged |
| Bookings.RowMatches | korepetcyje-app/backend/src/modules/bookings/bookings.controller.js:38-45 | an availability row matches a start when it belongs to the tutor, is for the start's weekday, and its start and end texts enclose the start's "HH:mm" as strings, both bounds included |
| Bookings.AvailableAt | korepetcyje-app/backend/src/modules/bookings/bookings.controller.js:35-49 | a start is available when some row matches it, with the weekday taken in local time and the "HH:mm" in UTC |
| Bookings.RowMatchesIffMinutes | korepetcyje-app/backend/src/modules/bookings/bookings.controller.js:35-45 | for rows whose bounds are well-formed "HH:mm" texts, the string comparison is the comparison of minutes of the day: a row matches exactly when the start's UTC minute lies between its bounds, both included |
| Bookings.HasConflict | korepetcyje-app/backend/src/modules/bookings/bookings.controller.js:53-64 | a conflict is a CONFIRMED booking of the same tutor that starts before the new lesson ends and ends after it starts |
| Bookings.CancelBooking | korepetcyje-app/backend/src/modules/bookings/bookings.controller.js:131-190 | 404 exactly when the booking is missing, 403 exactly when the caller is neither its student (acting as student) nor its tutor (acting as tutor), otherwise 200 and only that booking becomes CANCELLED |
| Bookings.CreatePreservesNoOverlap | korepetcyje-app/backend/src/modules/bookings/bookings.controller.js:51-81 | whatever the request, after create no two CONFIRMED bookings of one tutor overlap if none did before |
| Bookings.CreatePreservesWellFormed | korepetcyje-app/backend/src/modules/bookings/bookings.controller.js:66-81 | create keeps ids consistent with the auto-increment counter, every booking one lesson long and every cancelled booking untouched, and a 201 adds exactly one booking |
| Bookings.CancelPreservesInvariants | korepetcyje-app/backend/src/modules/bookings/bookings.controller.js:167-170 | cancel keeps the no-overlap, id and lesson-length invariants and never revives a cancelled booking |
| Bookings.CancelIsLocalAndIdempotent | korepetcyje-app/backend/src/modules/bookings/bookings.controller.js:143-170 | cancel changes no other booking, and repeating a successful cancel succeeds and changes nothing more |
| Bookings.CreateOutsideAvailabilityIs400 | korepetcyje-app/backend/src/modules/bookings/bookings.controller.js:34-49 | a complete request outside every window is refused with 400 and no change, before any conflict check |
| Bookings.CreateAcceptsStartAtWindowEnd | korepetcyje-app/backend/src/modules/bookings/bookings.controller.js:35-45 | the window's end bound is inclusive: a lesson starting at 18:00 in a 16:00-18:00 window is created and ends at 18:30 |
| Clock.Weekday | korepetcyje-app/backend/src/modules/bookings/bookings.controller.js:35 | the local weekday of an instant, 0 for Sunday to 6 for Saturday |
| Clock.WeekdayNextDay | korepetcyje-app/backend/src/modules/bookings/bookings.controller.js:35 | one day later is the next weekday, Saturday wrapping to Sunday |
| Clock.HhMm | korepetcyje-app/backend/src/modules/bookings/bookings.controller.js:36 | the UTC time of day as a well-formed "HH:mm" text whose minutes are the instant's minute of the UTC day |
| Exceptions.AddUnavailability | korepetcyje-app/backend/src/modules/calendar/unavailability.controller.js:10-84 | 400 exactly when a date is missing or unparseable or start is not before end, 404 exactly when the caller has no tutor profile; otherwise 201, the absence stored under the next id with an empty reason stored as none, every CONFIRMED booking of the tutor overlapping it cancelled with only its status changed, every other booking unchanged, and the count of cancelled bookings returned |
| Exceptions.DeleteUnavailability | korepetcyje-app/backend/src/modules/calendar/unavailability.controller.js:113-139 | 400 for an id that is not a non-zero number; 404 when the absence is missing or belongs to another tutor; 500 when the caller has no tutor profile; 200 removes exactly that absence |
| Exceptions.AddUnavailabilityCascade | korepetcyje-app/backend/src/modules/calendar/unavailability.controller.js:48-71 | after adding an absence no CONFIRMED booking of the tutor overlaps it, other tutors' bookings are untouched, and the store invariants still hold |
| Exceptions.DeleteRestoresNothing | korepetcyje-app/backend/src/modules/calendar/unavailability.controller.js:133-135 | deleting an absence leaves every booking as it was, so bookings it cancelled stay cancelled |
| Exceptions.HitIds | korepetcyje-app/backend/src/modules/calendar/unavailability.controller.js:48-61 | the cascade selects exactly the tutor's CONFIRMED bookings that overlap the absence |
| Exceptions.CancelAll | korepetcyje-app/backend/src/modules/calendar/unavailability.controller.js:63-71 | the batch update turns exactly the selected bookings CANCELLED and keeps the rest and the key set |
| Sessions.GroupBookingsIntoSessions | korepetcyje-app/frontend/src/pages/student/StudentCalendar.jsx:148-195 | a value that is not an array gives no sessions; otherwise the sessions' booking groups are the maximal runs of back-to-back bookings of one tutor, subject, mode and status in the start-sorted input |
| Sessions.BuildSession | korepetcyje-app/frontend/src/pages/student/StudentCalendar.jsx:197-214 | a session spans its group from the first start to the last end; tutor, student, subject, mode and status are the first booking's, the address too unless it is empty, in which case there is none; its id split on ',' gives back the booking ids in order |
| Sessions.SessionsPartitionInput | korepetcyje-app/frontend/src/pages/tutor/TutorDashboard.jsx:194-241 | grouping loses, adds and duplicates no booking: the groups concatenate to the sorted input, which is a permutation of the input; each group is chained, no group could absorb the next one's first booking, and sessions come in order of start |
| Sessions.SessionSpan | korepetcyje-app/frontend/src/pages/tutor/TutorDashboard.jsx:243-262 | a session of n one-lesson bookings ends n lessons after it starts |
| Sessions.IsToday | korepetcyje-app/frontend/src/pages/tutor/TutorDashboard.jsx:38-49 | an instant is today when it lies from local midnight through 23:59:59.999 of the current day |
| Sessions.RunIsUniform | korepetcyje-app/frontend/src/pages/student/StudentCalendar.jsx:197-214 | every booking of a session shares the first booking's tutor, subject, mode and status, the fields the session copies from it |
| Sessions.IsTodayIffSameLocalDay | korepetcyje-app/frontend/src/pages/tutor/TutorDashboard.jsx:38-50 | the window from local midnight to 23:59:59.999 holds exactly the instants on the same local calendar day as now |
| Sessions.TodaysSessions | korepetcyje-app/frontend/src/pages/tutor/TutorDashboard.jsx:35-60 | the dashboard groups exactly today's bookings that are not cancelled; every booking it shows is today's and not cancelled, each session is built from its group as the student calendar builds it, and the sessions are in order of start |
| Runs.SplitIntoRuns | korepetcyje-app/frontend/src/pages/student/StudentCalendar.jsx:155-192 | the grouping loop (extend the current group when the next booking chains on, otherwise close it) yields the unique partition into maximal runs |
| Runs.RunPartitionUnique | korepetcyje-app/frontend/src/pages/student/StudentCalendar.jsx:158-192 | a sequence has only one partition into maximal chained runs |
| Blocks.GroupBlocks | korepetcyje-app/frontend/src/pages/tutor/TutorCalendar.jsx:79-139 | the block loop, which compares each booking with the block's first booking and its running end, yields exactly one block per maximal run of back-to-back bookings with the same tutor, student, subject, mode and address, carrying the run's start, end and length |
| Blocks.ContinuesIffSameBlock | korepetcyje-app/frontend/src/pages/tutor/TutorCalendar.jsx:101-117 | comparing with the block's first booking and its end is the same as comparing with the run's last booking |
| Blocks.BlockLeTotal | korepetcyje-app/frontend/src/pages/tutor/TutorCalendar.jsx:71-76 | the comparator by tutor, student, subject and start orders every pair of bookings |
| Blocks.BlockLe | korepetcyje-app/frontend/src/pages/tutor/TutorCalendar.jsx:71-76 | the calendar comparator: by tutor, then student, then subject when they differ, then start, with a result of zero or below keeping the first booking first |
| Blocks.BlocksCountEveryBooking | korepetcyje-app/frontend/src/pages/tutor/TutorCalendar.jsx:119-139 | the block counts add up to the number of bookings |
| Blocks.BlockSpan | korepetcyje-app/frontend/src/pages/tutor/TutorCalendar.jsx:119-120 | a block of one-lesson bookings lasts its count of lessons |
| Blocks.TitleMinutesAreBlockLength | korepetcyje-app/frontend/src/pages/tutor/TutorCalendar.jsx:170 | the minutes in the title equal the time from the block's start to its end |
| Blocks.StudentName | korepetcyje-app/frontend/src/pages/tutor/TutorCalendar.jsx:143-146 | a student with an account shows first and last name; no student data shows "Uczeń" |
| Blocks.Tooltip | korepetcyje-app/frontend/src/pages/tutor/TutorCalendar.jsx:159-166 | the lines are, in order, student, subject, mode, the address exactly when it is truthy, the time span, and the slot count exactly when the block has more than one booking |
| Blocks.EventIdsDistinct | korepetcyje-app/frontend/src/pages/tutor/TutorCalendar.jsx:169 | events of different blocks get different ids |
| Blocks.BuildGroupedBookingEvents | korepetcyje-app/frontend/src/pages/tutor/TutorCalendar.jsx:68-180 | a value that is not an array gives no events; otherwise one event per block of the bookings sorted by the comparator, in order |
| Selection.GetAvailableModes | korepetcyje-app/frontend/src/pages/student/StudentTutorBooking.jsx:441-448 | ONLINE is offered exactly for "online" or "both" and OFFLINE exactly for "offline" or "both", in any letter case, online first; a missing or empty mode offers none |
| Selection.ModesIgnoreCase | korepetcyje-app/frontend/src/pages/student/StudentTutorBooking.jsx:443 | the offered modes do not depend on how the tutor's mode is capitalised |
| Selection.PreselectMode | korepetcyje-app/frontend/src/pages/student/StudentTutorBooking.jsx:50-54 | a tutor offering exactly one mode has it chosen; otherwise the choice stays |
| Selection.Segments | korepetcyje-app/frontend/src/pages/student/StudentTutorBooking.jsx:121-133 | the selection is cut into 30-minute segment starts before its end, as many as it takes 30-minute slots to cover it |
| Selection.HandleSelect | korepetcyje-app/frontend/src/pages/student/StudentTutorBooking.jsx:114-155 | a selection is kept exactly when every segment starts at a free slot, and then the segment starts are the selected slots |
| Selection.HandleCreateBooking | korepetcyje-app/frontend/src/pages/student/StudentTutorBooking.jsx:165-218 | requests are sent exactly when a subject, a mode, for an offline lesson a place, and some slot are chosen, with the first missing item's message otherwise; one request per selected slot, in order, with the address only for offline lessons |
| Selection.SubmitAll | korepetcyje-app/frontend/src/pages/student/StudentTutorBooking.jsx:189-214 | the requests are sent in order and the first failure stops the loop; bookings already made stay, and exactly the counted ones are created |
| Selection.SubmitAllKeepsInvariants | korepetcyje-app/frontend/src/pages/student/StudentTutorBooking.jsx:189-214 | however far the requests get, no two CONFIRMED bookings of a tutor overlap and no cancelled booking changes |
| Selection.SubmitAllKeepsBookings | korepetcyje-app/frontend/src/pages/student/StudentTutorBooking.jsx:189-214 | sending the requests never changes or removes a booking that was already stored |
| Selection.SubmitAllKeys | korepetcyje-app/frontend/src/pages/student/StudentTutorBooking.jsx:189-214 | the stored ids afterwards are the ids before plus exactly the next `created` ids from the counter on: no other booking is added and none removed |
| Selection.SubmitAllCreatesRequested | korepetcyje-app/frontend/src/pages/student/StudentTutorBooking.jsx:189-214 | the i-th accepted request stored, under the i-th fresh id, a CONFIRMED lesson of the caller's student profile with the requested tutor at the requested start |
| Selection.SubmitAllStopsAtFirstFailure | korepetcyje-app/frontend/src/pages/student/StudentTutorBooking.jsx:189-214 | a failure is the code the server gives the first refused request on the store the accepted ones left, and the loop ends with that store |
| Deck.FindSet | korepetcyje-app/frontend/src/pages/student/StudentFlashcards.jsx:64-67 | a set is found exactly when one has the selected id, and it is the first set in the list with that id |
| Deck.CardMatches | korepetcyje-app/frontend/src/pages/student/StudentFlashcards.jsx:47-51 | a card matches when its lowercased front or its lowercased back contains the query |
| Deck.NarrowSet | korepetcyje-app/frontend/src/pages/student/StudentFlashcards.jsx:46-52 | a set keeps, in order, exactly its cards whose front or back contains the query |
| Deck.FilteredSets | korepetcyje-app/frontend/src/pages/student/StudentFlashcards.jsx:42-54 | a blank search shows the sets as they are; otherwise every set stays, narrowed to its cards matching the trimmed, lowercased search |
| Deck.FilteredSetsIdempotent | korepetcyje-app/frontend/src/pages/student/StudentFlashcards.jsx:42-54 | searching the filtered sets again for the same text changes nothing |
| Deck.HasAnyCards | korepetcyje-app/frontend/src/pages/student/StudentFlashcards.jsx:56-58 | some set has a card list with at least one card |
| Deck.FilteredSetsHasAnyCards | korepetcyje-app/frontend/src/pages/student/StudentFlashcards.jsx:42-58 | the filtered sets hold a card only if the unfiltered sets do, and for a search made only of whitespace the filtered sets hold a card exactly when the unfiltered sets do |
| Text.TrimEmptyIffAllSpace | korepetcyje-app/frontend/src/pages/student/StudentFlashcards.jsx:43-44 | a search trims to the empty string exactly when every character of it is whitespace |
| Deck.Shuffle | korepetcyje-app/frontend/src/pages/student/StudentFlashcards.jsx:69-76 | the shuffled deck is a permutation of the cards, and one card or none stays as it is |
| Deck.OpenDeck | korepetcyje-app/frontend/src/pages/student/StudentFlashcards.jsx:78-89 | the learning deck is a permutation of the selected set's cards, or empty without a selected set, and starts at the first card, front up |
| Deck.Flip | korepetcyje-app/frontend/src/pages/student/StudentFlashcards.jsx:94-96 | flipping turns the card over and stays on it |
| Deck.FlipTwice | korepetcyje-app/frontend/src/pages/student/StudentFlashcards.jsx:94-96 | flipping twice shows the same side of the same card, and a flipped card is still a card of the deck |
| Deck.Next | korepetcyje-app/frontend/src/pages/student/StudentFlashcards.jsx:98-104 | next does nothing on an empty deck, otherwise stays on a card and shows its front |
| Deck.Prev | korepetcyje-app/frontend/src/pages/student/StudentFlashcards.jsx:106-112 | prev does nothing on an empty deck, otherwise stays on a card and shows its front |
| Deck.NextPrevModular | korepetcyje-app/frontend/src/pages/student/StudentFlashcards.jsx:98-112 | next and prev count one up and one down modulo the deck size |
| Deck.PrevNextInverse | korepetcyje-app/frontend/src/pages/student/StudentFlashcards.jsx:98-112 | prev undoes next and next undoes prev |
| Deck.NextCycles | korepetcyje-app/frontend/src/pages/student/StudentFlashcards.jsx:98-104 | k steps forward move k cards on modulo the deck, so a full round returns to the same card |
| Deck.RandomCard | korepetcyje-app/frontend/src/pages/student/StudentFlashcards.jsx:114-124 | with fewer than two cards nothing happens; otherwise a different card is shown, front up |
| Deck.Slice | korepetcyje-app/frontend/src/pages/student/StudentFlashcards.jsx:136 | slicing within non-negative bounds gives the window clipped to the list and never more than the range |
| Deck.Paginate | korepetcyje-app/frontend/src/pages/student/StudentFlashcards.jsx:134-137 | a page is never longer than the page size, and page p from 1 on is the window from (p - 1) times the page size, cut off at the end of the list |
| Deck.PagesCoverList | korepetcyje-app/frontend/src/pages/student/StudentFlashcards.jsx:134-137 | pages 1 to p read in order are the first p pages' worth of items, so the pages together give back the list |
| Editor.ToggleStudent | korepetcyje-app/frontend/src/pages/tutor/TutorFlashcards.jsx:213-219 | a selected id is removed and the others stay; an unselected id is appended |
| Editor.ToggleTwiceRestores | korepetcyje-app/frontend/src/pages/tutor/TutorFlashcards.jsx:213-219 | toggling an unselected id twice gives back the selection |
| Editor.CreateSet | korepetcyje-app/frontend/src/pages/tutor/TutorFlashcards.jsx:93-110 | a blank name or a failed request changes nothing; otherwise the new set goes first and is the selected set |
| Editor.CreateCard | korepetcyje-app/frontend/src/pages/tutor/TutorFlashcards.jsx:112-140 | with a set selected and both sides non-blank, the new card goes in front of the selected set's cards, and every other set is unchanged |
| Editor.CreateCardShowsCard | korepetcyje-app/frontend/src/pages/tutor/TutorFlashcards.jsx:112-140 | after a card is added, the selected set shows it first, followed by the cards it had, under the same id and name |
| Editor.SaveEdit | korepetcyje-app/frontend/src/pages/tutor/TutorFlashcards.jsx:154-182 | with both sides non-blank, the server's card replaces every card with the edited id in every set; ids, names and order of the sets are kept |
| Editor.ReplaceAbsentCard | korepetcyje-app/frontend/src/pages/tutor/TutorFlashcards.jsx:166-173 | replacing a card id that no card has changes nothing |
| Editor.DeleteCard | korepetcyje-app/frontend/src/pages/tutor/TutorFlashcards.jsx:184-211 | once confirmed and deleted, the selected set keeps, in order, exactly its cards with another id; other sets are unchanged |
| Editor.DeleteSet | korepetcyje-app/frontend/src/pages/tutor/TutorFlashcards.jsx:268-302 | once confirmed and deleted, exactly the sets with another id remain, in order, and the first of them is selected, or none when no set is left |
| Editor.DeleteSetReselects | korepetcyje-app/frontend/src/pages/tutor/TutorFlashcards.jsx:285-292 | after a set is deleted the selection names the first remaining set whenever one is left |
| Editor.RenameSet | korepetcyje-app/frontend/src/pages/tutor/TutorFlashcards.jsx:316-339 | with a set selected and a non-blank name, exactly the sets with the selected id take the returned name; ids and cards never change |
| Editor.RenameSetShowsName | korepetcyje-app/frontend/src/pages/tutor/TutorFlashcards.jsx:316-339 | after a rename, the selected set carries the name the server returned and keeps its id and cards |
| Profiles.IsTutorProfileComplete | korepetcyje-app/frontend/src/services/profileService.js:22-30 | a tutor profile is complete when it exists, has a non-empty mode and a non-empty subject list |
| Profiles.IsStudentProfileComplete | korepetcyje-app/frontend/src/services/profileService.js:32-39 | a student profile is complete, for the shared service, when it exists and has a non-empty city and grade |
| Profiles.HasStudentNames | korepetcyje-app/frontend/src/services/studentProfileService.js:13-23 | a student profile is complete, for the student service, when it exists and has a non-empty first and last name |
| Profiles.TutorCompleteness | korepetcyje-app/frontend/src/services/profileService.js:22-30 | a tutor profile with a mode becomes complete once it has a subject, and is incomplete without a mode, with an empty mode, or with no or an empty subject list |
| Profiles.StudentChecksReadDifferentFields | korepetcyje-app/frontend/src/services/studentProfileService.js:13-23 | the shared check reads only city and grade, the student service's check only the two names, and an empty value counts as missing |
| Profiles.StudentDefinitionsDiffer | korepetcyje-app/frontend/src/services/profileService.js:32-39 | a profile with names but no city is complete under one definition and not the other, and the other way round |
| Roster.NameMatches | korepetcyje-app/frontend/src/pages/tutor/TutorStudents.jsx:40-47 | an entry matches when its lowercased full name, first name or last name contains the query |
| Roster.FullNameDecides | korepetcyje-app/frontend/src/pages/tutor/TutorStudents.jsx:40-47 | the three tests of the search (full name, first name, last name) match exactly when the full name alone matches |
| Roster.FilterByName | korepetcyje-app/frontend/src/pages/tutor/TutorStudents.jsx:36-48 | a blank search shows the list as it is; otherwise exactly the entries matching the lowercased, untrimmed search stay, in order |
| Roster.RemoveFromView | korepetcyje-app/frontend/src/components/StudentDashboardTutorsSection.jsx:34-36 | exactly the entries with another id stay, in order |
| Roster.RemoveThenSearchCommute | korepetcyje-app/frontend/src/components/StudentDashboardTutorsSection.jsx:34-50 | hiding an entry and then searching shows the same list as searching and then hiding it |
| Roster.RemoveFromViewIdempotent | korepetcyje-app/frontend/src/pages/tutor/TutorStudents.jsx:32-34 | hiding the same entry twice is hiding it once |

## Left out

- Daylight-saving time: the local time zone is a fixed offset, so a weekday near a DST switch may differ from the browser's or server's.
- The server's e-mail and notification side effects, request logging and the database transaction boundary. The cascade's insert and batch update form one atomic step.
- `getMyBookings` and `getUnavailabilities`: they only read the store, filtered by the caller, and add nothing to the invariants.
- Free-slot generation: the booking page asks the server for a tutor's free slots (`korepetcyje-app/frontend/src/services/calendarService.js`, lines 55-59), but no back-end handler for that request is part of this model. The free slots are a parameter, a set of start instants rather than ISO strings.
- `Number(...)` parsing of ids beyond "not a number, or an integer": booking ids in the booking routes, the absence id in the unavailability delete route (`Exceptions.IdParam`), and the `tutorId` of the booking request body (`korepetcyje-app/backend/src/modules/bookings/bookings.controller.js:40`) are all taken as integers or as missing.
- The authentication middleware. The caller's identity and role are parameters, and a role other than student or tutor is not modelled.
- Flashcard assignment to students, and unassignment: these handlers only call the server and reload.
- Loading pages, error banners, success messages, `setCurrentPage(1)` on a new search, and other view state not listed above.
- The tutor page's choice of the first set on load.
- The tooltip's clock times: they are rendered by the browser's locale (`toLocaleTimeString`) and are kept as instants.
- Event colours, and `toISOString` outside the years 0000-9999.
- Text case mapping is ASCII only. The source uses the full Unicode `toLowerCase`/`toUpperCase`, which also maps letters such as "Ł".
- A booking's nested `student`, `tutor` and `subject` objects: the tutor calendar's student data is a map from booking id.
- `Blocks.StudentName`: a template literal's rendering of `undefined` is not distinguished from `null`; both show "null".
- `Blocks.BlockLe`: a missing subject id sorts as 0, since the subtraction in the comparator reads a null id as 0.
- `Sessions.BuildSession`: the student calendar's copy does not carry `studentId` and `student`, the dashboard's does. The model's session is the dashboard's.
- `Selection.HandleCreateBooking`: the subject, mode and address it sends are ignored by the server, which stores none of them.
- `Selection.Segments`: a segment is 30 minutes of absolute time, where the source steps with local `setMinutes`; the two agree away from DST switches.
- `Deck.RandomCard`: the retry loop on `Math.random` is modelled by what it ends with, a different valid card.
- `Deck.OpenDeck`: "reshuffle" without a selected set or cards does nothing at all, while the model gives an empty deck in that case.
- `Deck.Slice`: for ranges with negative bounds only `|r| <= b - a` is stated, not the exact window.
- `Deck.Paginate`: for negative page sizes nothing about the length is stated.
- `Seqs.SortBy`: the sort's stability, which `Array.prototype.sort` guarantees, is not stated; the lemmas use only that the result is sorted and a permutation.
- `Exceptions.AddUnavailability`: as written, the handler looks up the tutor profile by `req.user.id`, which the login token does not carry (it carries `userId`). So no add can reach 201: the lookup either throws, answered with 500, or finds no profile, answered with 404. The model takes the caller's user id as a parameter and states the behaviour the handler evidently intends, which holds if the authentication middleware stores the decoded token as `req.user`, as the bookings handler's use of `req.user.userId` suggests (the middleware is not part of this model). The same `req.user.id` read appears in `korepetcyje-app/backend/src/modules/tutors/tutors.controller.js:8,46` and `korepetcyje-app/backend/src/modules/students/students.controller.js:7,23,39`. The unavailability routes are also not mounted in `korepetcyje-app/backend/src/app.js` (lines 22-28), so the endpoint cannot be called.
- `Exceptions.DeleteUnavailability`: the same `req.user.id` lookup means no delete can reach 200, since the missing profile ends in 500 or 404. The model takes the caller's user id as a parameter, under the same assumption about `req.user` as for `Exceptions.AddUnavailability`. The routes are not mounted in `korepetcyje-app/backend/src/app.js` (lines 22-28).

=== FILE: booking_blocks.dfy ===
/** The tutor calendar's view of bookings: bookings are sorted by tutor,
    student, subject and start, and each maximal run of back-to-back bookings
    of one student with the same subject, mode and address becomes one
    calendar block, shown as an event with a title and tooltip lines. */
module Blocks {
  import opened Wrappers
  import opened Seqs
  import opened Runs
  import opened Text
  import opened Clock
  import opened Store

  /** The numeric value of a subject id in the comparator's subtraction, where a
      missing id counts as 0. */
  function SubjectKey(s: Option<int>): int
  {
    if s.None? then 0 else s.value
  }

  /** The sort order: tutor, then student, then subject (when the ids differ),
      then start. A comparator result of zero or below keeps `a` first. */
  predicate BlockLe(a: Booking, b: Booking)
  {
    if a.tutorId != b.tutorId then a.tutorId <= b.tutorId
    else if a.studentId != b.studentId then a.studentId <= b.studentId
    else if a.subjectId != b.subjectId then SubjectKey(a.subjectId) <= SubjectKey(b.subjectId)
    else a.startAt <= b.startAt
  }

  lemma BlockLeTotal()
    ensures Total(BlockLe)
  {
  }

  /** Two bookings belong to one block: same tutor, student, subject, mode and
      address, and `next` starts when `prev` ends. */
  predicate SameBlock(prev: Booking, next: Booking)
  {
    && prev.tutorId == next.tutorId
    && prev.studentId == next.studentId
    && prev.subjectId == next.subjectId
    && prev.mode == next.mode
    && prev.address == next.address
    && prev.endAt == next.startAt
  }

  /** A block: the first booking supplies its attributes. */
  datatype Block = Block(first: Booking, startAt: int, endAt: int, count: nat)

  /** The loop's merge test: it compares `b` with the block's first booking
      and with the end of the block so far. */
  predicate Continues(g: Block, b: Booking)
  {
    && g.first.tutorId == b.tutorId
    && g.first.studentId == b.studentId
    && g.first.subjectId == b.subjectId
    && g.first.mode == b.mode
    && g.first.address == b.address
    && g.endAt == b.startAt
  }

  function Open(b: Booking): (g: Block)
    ensures g.count == 1 && g.first == b
  {
    Block(b, b.startAt, b.endAt, 1)
  }

  /** The block a run of bookings stands for. */
  function BlockOf(run: seq<Booking>): (g: Block)
    requires |run| > 0
    ensures g.first == run[0] && g.count == |run|
    ensures g.startAt == run[0].startAt && g.endAt == Last(run).endAt
  {
    Block(run[0], run[0].startAt, Last(run).endAt, |run|)
  }

  ghost predicate NonEmptyRuns(runs: seq<seq<Booking>>)
  {
    forall k :: 0 <= k < |runs| ==> |runs[k]| > 0
  }

  function BlocksOf(runs: seq<seq<Booking>>): (r: seq<Block>)
    requires NonEmptyRuns(runs)
    ensures |r| == |runs|
    ensures forall k :: 0 <= k < |r| ==> r[k] == BlockOf(runs[k])
  {
    seq(|runs|, k requires 0 <= k < |runs| => BlockOf(runs[k]))
  }

  lemma BlocksOfAppend(runs: seq<seq<Booking>>, run: seq<Booking>)
    requires NonEmptyRuns(runs) && |run| > 0
    ensures NonEmptyRuns(runs + [run])
    ensures BlocksOf(runs + [run]) == BlocksOf(runs) + [BlockOf(run)]
  {
  }

  /** Inside a run the attributes never change, so the last booking of a run
      carries the first one's. */
  lemma {:induction false} RunKeepsAttributes(run: seq<Booking>, j: nat)
    requires Chained(run, SameBlock)
    requires j < |run|
    ensures run[j].tutorId == run[0].tutorId && run[j].studentId == run[0].studentId
    ensures run[j].subjectId == run[0].subjectId && run[j].mode == run[0].mode
    ensures run[j].address == run[0].address
  {
    if j > 0 {
      RunKeepsAttributes(run, j - 1);
      assert SameBlock(run[j - 1], run[j]);
    }
  }

  /** Comparing with the block's first booking and its end, as the loop does,
      is the same as comparing with the run's last booking. */
  lemma ContinuesIffSameBlock(run: seq<Booking>, b: Booking)
    requires |run| > 0 && Chained(run, SameBlock)
    ensures Continues(BlockOf(run), b) <==> SameBlock(Last(run), b)
  {
    RunKeepsAttributes(run, |run| - 1);
  }

  /** The loop extends the current block: the run grows by `b`. */
  lemma ExtendBlock(xs: seq<Booking>, runs: seq<seq<Booking>>, run: seq<Booking>, b: Booking)
    requires IsRunPartition(xs, runs + [run], SameBlock)
    requires Continues(BlockOf(run), b)
    ensures IsRunPartition(xs + [b], runs + [run + [b]], SameBlock)
    ensures BlockOf(run + [b]) == Block(BlockOf(run).first, BlockOf(run).startAt, b.endAt, BlockOf(run).count + 1)
  {
    assert (runs + [run])[|runs|] == run;
    ContinuesIffSameBlock(run, b);
    ExtendLastRun(xs, runs + [run], b, SameBlock);
    assert (runs + [run])[..|runs|] == runs;
  }

  /** The loop closes the current block and opens one holding `b`. */
  lemma CloseBlock(xs: seq<Booking>, runs: seq<seq<Booking>>, run: seq<Booking>, b: Booking)
    requires IsRunPartition(xs, runs + [run], SameBlock)
    requires !Continues(BlockOf(run), b)
    ensures IsRunPartition(xs + [b], runs + [run] + [[b]], SameBlock)
  {
    assert (runs + [run])[|runs|] == run;
    ContinuesIffSameBlock(run, b);
    StartNewRun(xs, runs + [run], b, SameBlock);
  }

  /** The grouping loop of `buildGroupedBookingEvents` over sorted bookings:
      it keeps the current block (attributes, end, count), extends it with a
      booking that continues it and otherwise closes it and opens a new one.
      The source starts with no block and opens one on the first booking; here
      that first step comes before the loop. Its blocks are exactly those of
      the maximal runs. */
  method GroupBlocks(sorted: seq<Booking>) returns (blocks: seq<Block>)
    ensures NonEmptyRuns(MaximalRuns(sorted, SameBlock))
    ensures blocks == BlocksOf(MaximalRuns(sorted, SameBlock))
  {
    blocks := [];
    if |sorted| == 0 {
      return;
    }
    var current := Open(sorted[0]);
    ghost var runs: seq<seq<Booking>> := [];
    ghost var run := [sorted[0]];
    StartNewRun([], [], sorted[0], SameBlock);
    assert sorted[..1] == [] + [sorted[0]];
    for i := 1 to |sorted|
      invariant |run| > 0 && current == BlockOf(run)
      invariant IsRunPartition(sorted[..i], runs + [run], SameBlock)
      invariant NonEmptyRuns(runs) && blocks == BlocksOf(runs)
    {
      var b := sorted[i];
      assert sorted[..i + 1] == sorted[..i] + [b];
      if Continues(current, b) {
        ExtendBlock(sorted[..i], runs, run, b);
        current := Block(current.first, current.startAt, b.endAt, current.count + 1);
        run := run + [b];
      } else {
        CloseBlock(sorted[..i], runs, run, b);
        BlocksOfAppend(runs, run);
        blocks := blocks + [current];
        runs := runs + [run];
        current := Open(b);
        run := [b];
      }
    }
    assert sorted[..|sorted|] == sorted;
    BlocksOfAppend(runs, run);
    blocks := blocks + [current];
    RunPartitionUnique(sorted, runs + [run], MaximalRuns(sorted, SameBlock), SameBlock);
  }

  function SumCounts(blocks: seq<Block>): nat
  {
    if |blocks| == 0 then 0 else SumCounts(blocks[..|blocks| - 1]) + Last(blocks).count
  }

  lemma {:induction false} SumCountsIsSumLengths(runs: seq<seq<Booking>>)
    requires NonEmptyRuns(runs)
    ensures SumCounts(BlocksOf(runs)) == SumLengths(runs)
  {
    if |runs| > 0 {
      var init := runs[..|runs| - 1];
      SumCountsIsSumLengths(init);
      assert BlocksOf(runs)[..|runs| - 1] == BlocksOf(init);
    }
  }

  /** Every booking is counted in exactly one block: the counts add up to the
      number of bookings. */
  lemma BlocksCountEveryBooking(input: seq<Booking>)
    ensures NonEmptyRuns(MaximalRuns(SortBy(input, BlockLe), SameBlock))
    ensures SumCounts(BlocksOf(MaximalRuns(SortBy(input, BlockLe), SameBlock))) == |input|
  {
    var runs := MaximalRuns(SortBy(input, BlockLe), SameBlock);
    ConcatLength(runs);
    SumCountsIsSumLengths(runs);
  }

  /** A block of one-lesson bookings lasts its count of lessons. */
  lemma {:induction false} BlockSpan(run: seq<Booking>)
    requires |run| > 0 && Chained(run, SameBlock)
    requires forall j :: 0 <= j < |run| ==> run[j].endAt == run[j].startAt + LESSON_MS
    ensures BlockOf(run).endAt - BlockOf(run).startAt == BlockOf(run).count * LESSON_MS
  {
    if |run| > 1 {
      var init := run[..|run| - 1];
      assert Chained(init, SameBlock) by {
        forall k | 0 <= k < |init| - 1 ensures SameBlock(init[k], init[k + 1]) {
          assert init[k] == run[k] && init[k + 1] == run[k + 1];
        }
      }
      BlockSpan(init);
      assert SameBlock(run[|run| - 2], run[|run| - 1]);
    }
  }

  /** The student data the API includes with a booking. */
  datatype StudentInfo = StudentInfo(hasUser: bool, firstName: Option<string>, lastName: Option<string>)

  /** How a template literal prints a value that may be null. */
  function Shown(s: Option<string>): string
  {
    if s.None? then "null" else s.value
  }

  /** The displayed student name: first and last name when the student has an
      account; otherwise the names with "Uczeń" standing in for a missing
      first name, trimmed. */
  function StudentName(s: Option<StudentInfo>): (r: string)
    ensures s.Some? && s.value.hasUser ==> r == Shown(s.value.firstName) + " " + Shown(s.value.lastName)
    ensures s.None? ==> r == "Uczeń"
  {
    if s.Some? && s.value.hasUser then Shown(s.value.firstName) + " " + Shown(s.value.lastName)
    else if s.None? then
      TrimPlaceholder();
      Trim("Uczeń ")
    else
      Trim(s.value.firstName.GetOr("Uczeń") + " " + s.value.lastName.GetOr(""))
  }

  lemma TrimPlaceholder()
    ensures Trim("Uczeń ") == "Uczeń"
  {
    var padded := "Uczeń ";
    var name := "Uczeń";
    assert !IsSpace(padded[0]);
    assert TrimStart(padded) == padded;
    assert padded[..|padded| - 1] == name && IsSpace(padded[|padded| - 1]);
    assert !IsSpace(name[|name| - 1]);
    assert TrimEnd(name) == name;
    assert TrimEnd(padded) == name;
  }

  function ModeLabel(m: Option<Mode>): string
  {
    match m
    case Some(Online) => "Online"
    case Some(Offline) => "Offline"
    case None => "null"
  }

  /** A tooltip line; the clock times are rendered by the browser's locale. */
  datatype TooltipLine =
    | StudentLine(name: string)
    | SubjectLine(subjectId: Option<int>)
    | ModeLine(modeText: string)
    | AddressLine(address: string)
    | TimeLine(startAt: int, endAt: int)
    | SlotsLine(count: nat)

  datatype Event = Event(id: string, title: string, start: int, end: int, tooltip: seq<TooltipLine>)

  const EVENT_ID_PREFIX := "booking-group-"

  /** The tooltip lines in display order: student, subject, mode, the address
      when there is one, the time span, and the slot count for a block of more
      than one lesson. */
  function Tooltip(g: Block, name: string): (r: seq<TooltipLine>)
    ensures |r| == 4 + (if Truthy(g.first.address) then 1 else 0) + (if g.count > 1 then 1 else 0)
    ensures r[0] == StudentLine(name) && r[1] == SubjectLine(g.first.subjectId)
    ensures r[2] == ModeLine(ModeLabel(g.first.mode))
    ensures Truthy(g.first.address) ==> r[3] == AddressLine(g.first.address.value)
    ensures r[|r| - 1 - (if g.count > 1 then 1 else 0)] == TimeLine(g.startAt, g.endAt)
    ensures g.count > 1 ==> r[|r| - 1] == SlotsLine(g.count)
    ensures (exists i :: 0 <= i < |r| && r[i].SlotsLine?) <==> g.count > 1
    ensures (exists i :: 0 <= i < |r| && r[i].AddressLine?) <==> Truthy(g.first.address)
    ensures forall i :: 0 <= i < |r| && r[i].SlotsLine? ==> r[i].count == g.count
    ensures forall i :: 0 <= i < |r| && r[i].AddressLine? ==> Some(r[i].address) == g.first.address
  {
    var address := if Truthy(g.first.address) then [AddressLine(g.first.address.value)] else [];
    var slots := if g.count > 1 then [SlotsLine(g.count)] else [];
    var r := [StudentLine(name), SubjectLine(g.first.subjectId), ModeLine(ModeLabel(g.first.mode))]
      + address + [TimeLine(g.startAt, g.endAt)] + slots;
    assert Truthy(g.first.address) ==> r[3].AddressLine?;
    assert g.count > 1 ==> r[|r| - 1].SlotsLine?;
    r
  }

  /** The event for block number `index`. */
  function ToEvent(g: Block, index: nat, studentOf: map<int, StudentInfo>): (e: Event)
    ensures e.id == EVENT_ID_PREFIX + NatToDecimal(index)
    ensures e.start == g.startAt && e.end == g.endAt
  {
    var name := StudentName(if g.first.id in studentOf then Some(studentOf[g.first.id]) else None);
    Event(
      EVENT_ID_PREFIX + NatToDecimal(index),
      name + " (" + NatToDecimal(g.count * LESSON_MINUTES) + " min)",
      g.startAt,
      g.endAt,
      Tooltip(g, name))
  }

  function Events(blocks: seq<Block>, studentOf: map<int, StudentInfo>): (r: seq<Event>)
    ensures |r| == |blocks|
    ensures forall k :: 0 <= k < |r| ==> r[k] == ToEvent(blocks[k], k, studentOf)
  {
    seq(|blocks|, k requires 0 <= k < |blocks| => ToEvent(blocks[k], k, studentOf))
  }

  /** Events of different blocks have different ids. */
  lemma EventIdsDistinct(blocks: seq<Block>, studentOf: map<int, StudentInfo>, i: nat, j: nat)
    requires i < |blocks| && j < |blocks| && i != j
    ensures Events(blocks, studentOf)[i].id != Events(blocks, studentOf)[j].id
  {
    var a := NatToDecimal(i);
    var b := NatToDecimal(j);
    DecimalInjective(i, j);
    assert (EVENT_ID_PREFIX + a)[|EVENT_ID_PREFIX|..] == a;
    assert (EVENT_ID_PREFIX + b)[|EVENT_ID_PREFIX|..] == b;
  }

  /** The title states the block's length in minutes; for one-lesson bookings
      that is the time from the block's start to its end. */
  lemma TitleMinutesAreBlockLength(run: seq<Booking>)
    requires |run| > 0 && Chained(run, SameBlock)
    requires forall j :: 0 <= j < |run| ==> run[j].endAt == run[j].startAt + LESSON_MS
    ensures BlockOf(run).count * LESSON_MINUTES * MINUTE_MS == BlockOf(run).endAt - BlockOf(run).startAt
  {
    BlockSpan(run);
  }

  /** `buildGroupedBookingEvents`: `None` stands for a value that is not an array. */
  method BuildGroupedBookingEvents(input: Option<seq<Booking>>, studentOf: map<int, StudentInfo>)
    returns (events: seq<Event>)
    ensures input.None? ==> events == []
    ensures input.Some? ==> NonEmptyRuns(MaximalRuns(SortBy(input.value, BlockLe), SameBlock))
    ensures input.Some? ==>
      events == Events(BlocksOf(MaximalRuns(SortBy(input.value, BlockLe), SameBlock)), studentOf)
  {
    if input.None? || |input.value| == 0 {
      return [];
    }
    var sorted := SortBy(input.value, BlockLe);
    var blocks := GroupBlocks(sorted);
    events := Events(blocks, studentOf);
  }
}

=== FILE: bookings.dfy ===
/** The booking handlers of the back end: creating a 30-minute booking against
    the tutor's weekly availability and existing CONFIRMED bookings, and
    cancelling one booking by its student or tutor. */
module Bookings {
  import opened Wrappers
  import opened Text
  import opened Clock
  import opened Store

  /** An availability row of `tutorId` for the weekday of the start whose bounds,
      compared as strings and both inclusive, enclose the start's "HH:mm". */
  predicate RowMatches(a: Availability, tutorId: int, weekday: int, hhmm: string)
  {
    a.tutorId == tutorId && a.dayOfWeek == weekday && StrLe(a.startTime, hhmm) && StrLe(hhmm, a.endTime)
  }

  /** The availability lookup: the weekday is local time (`getDay`), the
      "HH:mm" is UTC (`toISOString`), as the handler computes them. */
  predicate AvailableAt(rows: seq<Availability>, tutorId: int, start: int, offset: int)
  {
    exists i :: 0 <= i < |rows| && RowMatches(rows[i], tutorId, Weekday(start, offset), HhMm(start))
  }

  /** For rows whose bounds are well-formed "HH:mm" texts, the string
      comparison of the lookup is the comparison of minutes of the day: a
      row matches exactly when the start's UTC minute lies between its bounds,
      both included. */
  lemma RowMatchesIffMinutes(a: Availability, tutorId: int, start: int, offset: int)
    requires IsHhMm(a.startTime) && IsHhMm(a.endTime)
    ensures RowMatches(a, tutorId, Weekday(start, offset), HhMm(start)) <==>
      && a.tutorId == tutorId && a.dayOfWeek == Weekday(start, offset)
      && MinutesOf(a.startTime) <= MinuteOfDay(start) <= MinutesOf(a.endTime)
  {
    HhMmOrder(a.startTime, HhMm(start));
    HhMmOrder(HhMm(start), a.endTime);
  }

  /** A CONFIRMED booking of the tutor that overlaps [start, end). */
  predicate Conflicts(b: Booking, tutorId: int, start: int, end: int)
  {
    b.tutorId == tutorId && b.status == Confirmed && Overlaps(b.startAt, b.endAt, start, end)
  }

  predicate HasConflict(bookings: map<int, Booking>, tutorId: int, start: int, end: int)
  {
    exists k :: k in bookings && Conflicts(bookings[k], tutorId, start, end)
  }

  /** The body fields are present (a tutor id of 0 is falsy) and the date parses. */
  predicate WellFormedRequest(tutorId: Option<int>, startAt: DateField)
  {
    tutorId.Some? && tutorId.value != 0 && startAt.At?
  }

  /** POST /bookings by a student: `userId` is the caller, `offset` the server's
      time zone. */
  function CreateBooking(db: Db, userId: int, tutorId: Option<int>, startAt: DateField, offset: int): (r: Outcome)
    ensures r.code in {201, 400, 404, 409}
    ensures r.code != 201 ==> r.db == db
    ensures !WellFormedRequest(tutorId, startAt) ==> r.code == 400
    ensures r.code == 404 <==> WellFormedRequest(tutorId, startAt) && userId !in db.studentProfileOf
    ensures r.code == 409 <==>
      && WellFormedRequest(tutorId, startAt) && userId in db.studentProfileOf
      && AvailableAt(db.availability, tutorId.value, startAt.ms, offset)
      && HasConflict(db.bookings, tutorId.value, startAt.ms, startAt.ms + LESSON_MS)
    ensures r.code == 201 <==>
      && WellFormedRequest(tutorId, startAt) && userId in db.studentProfileOf
      && AvailableAt(db.availability, tutorId.value, startAt.ms, offset)
      && !HasConflict(db.bookings, tutorId.value, startAt.ms, startAt.ms + LESSON_MS)
    ensures r.code == 201 ==>
      && r.body.BookingBody?
      && var b := r.body.booking;
      && b.id == db.nextBookingId
      && r.db == db.(bookings := db.bookings[b.id := b], nextBookingId := db.nextBookingId + 1)
      && b.tutorId == tutorId.value && b.studentId == db.studentProfileOf[userId]
      && b.startAt == startAt.ms && b.endAt == b.startAt + LESSON_MS
      && b.subjectId.None? && b.mode.None? && b.address.None?
      && b.status == Confirmed
  {
    if tutorId.None? || tutorId.value == 0 || startAt.Missing? then
      Outcome(400, ErrorBody("Brak danych"), db)
    else if startAt.Unparseable? then
      Outcome(400, ErrorBody("Zły format daty"), db)
    else
      var tid := tutorId.value;
      var start := startAt.ms;
      var end := start + LESSON_MS;
      if userId !in db.studentProfileOf then
        Outcome(404, ErrorBody("Brak profilu ucznia"), db)
      else if !AvailableAt(db.availability, tid, start, offset) then
        Outcome(400, ErrorBody("Termin niedostępny"), db)
      else if HasConflict(db.bookings, tid, start, end) then
        Outcome(409, ErrorBody("Slot zajęty"), db)
      else
        var b := Booking(db.nextBookingId, tid, db.studentProfileOf[userId], None, None, None, start, end, Confirmed);
        Outcome(201, BookingBody(b), db.(bookings := db.bookings[b.id := b], nextBookingId := db.nextBookingId + 1))
  }

  datatype Role = StudentRole | TutorRole

  /** The caller owns the booking: as its student when acting as a student, or
      as its tutor when acting as a tutor. */
  predicate MayCancel(db: Db, b: Booking, role: Role, userId: int)
  {
    || (role == StudentRole && userId in db.studentProfileOf && db.studentProfileOf[userId] == b.studentId)
    || (role == TutorRole && userId in db.tutorProfileOf && db.tutorProfileOf[userId] == b.tutorId)
  }

  /** PATCH /bookings/:id/cancel. */
  function CancelBooking(db: Db, id: int, role: Role, userId: int): (r: Outcome)
    ensures r.code in {200, 403, 404}
    ensures r.code == 404 <==> id !in db.bookings
    ensures r.code == 403 <==> id in db.bookings && !MayCancel(db, db.bookings[id], role, userId)
    ensures r.code != 200 ==> r.db == db
    ensures r.code == 200 ==>
      && r.body.BookingBody?
      && r.body.booking == db.bookings[id].(status := Cancelled)
      && r.db == db.(bookings := db.bookings[id := r.body.booking])
  {
    if id !in db.bookings then
      Outcome(404, ErrorBody("Nie znaleziono rezerwacji"), db)
    else
      var b := db.bookings[id];
      if !MayCancel(db, b, role, userId) then
        Outcome(403, ErrorBody("Brak dostępu"), db)
      else
        var updated := b.(status := Cancelled);
        Outcome(200, BookingBody(updated), db.(bookings := db.bookings[id := updated]))
  }

  /** Creating a booking keeps every CONFIRMED booking of a tutor disjoint from the others. */
  lemma CreatePreservesNoOverlap(db: Db, userId: int, tutorId: Option<int>, startAt: DateField, offset: int)
    requires WellFormed(db) && NoOverlap(db.bookings)
    ensures NoOverlap(CreateBooking(db, userId, tutorId, startAt, offset).db.bookings)
  {
    var r := CreateBooking(db, userId, tutorId, startAt, offset);
    if r.code == 201 {
      var b := r.body.booking;
      var m := r.db.bookings;
      forall i, j | i in m && j in m && i != j && m[i].tutorId == m[j].tutorId
        && m[i].status == Confirmed && m[j].status == Confirmed
        ensures !Overlaps(m[i].startAt, m[i].endAt, m[j].startAt, m[j].endAt)
      {
        if i == b.id {
          assert !Conflicts(db.bookings[j], b.tutorId, b.startAt, b.endAt);
        } else if j == b.id {
          assert !Conflicts(db.bookings[i], b.tutorId, b.startAt, b.endAt);
        }
      }
    }
  }

  /** Creating a booking keeps the ids consistent, every booking one lesson
      long, and every cancelled booking cancelled. */
  lemma CreatePreservesWellFormed(db: Db, userId: int, tutorId: Option<int>, startAt: DateField, offset: int)
    requires WellFormed(db) && OneLessonEach(db.bookings)
    ensures var r := CreateBooking(db, userId, tutorId, startAt, offset);
      && WellFormed(r.db) && OneLessonEach(r.db.bookings)
      && CancellationsKept(db.bookings, r.db.bookings)
      && (r.code == 201 ==> |r.db.bookings| == |db.bookings| + 1)
  {
    var r := CreateBooking(db, userId, tutorId, startAt, offset);
    if r.code == 201 {
      assert db.nextBookingId !in db.bookings;
    }
  }

  /** Cancelling keeps the invariants: it only ever turns a booking CANCELLED. */
  lemma CancelPreservesInvariants(db: Db, id: int, role: Role, userId: int)
    requires WellFormed(db) && NoOverlap(db.bookings) && OneLessonEach(db.bookings)
    ensures var r := CancelBooking(db, id, role, userId);
      && WellFormed(r.db) && NoOverlap(r.db.bookings) && OneLessonEach(r.db.bookings)
      && CancellationsKept(db.bookings, r.db.bookings)
  {
  }

  /** A successful cancel changes no booking but the one named, and a second
      cancel of the same booking by the same caller succeeds and changes nothing. */
  lemma CancelIsLocalAndIdempotent(db: Db, id: int, role: Role, userId: int)
    ensures var r := CancelBooking(db, id, role, userId);
      && r.db.bookings.Keys == db.bookings.Keys
      && (forall k :: k in db.bookings && k != id ==> r.db.bookings[k] == db.bookings[k])
      && (r.code == 200 ==> CancelBooking(r.db, id, role, userId) == r)
  {
  }

  /** The validation order of the handler: with a well-formed request and a
      student profile, a request outside every availability row is refused
      with 400 before the conflict check. */
  lemma CreateOutsideAvailabilityIs400(db: Db, userId: int, tutorId: Option<int>, startAt: DateField, offset: int)
    requires WellFormedRequest(tutorId, startAt) && userId in db.studentProfileOf
    requires !AvailableAt(db.availability, tutorId.value, startAt.ms, offset)
    ensures CreateBooking(db, userId, tutorId, startAt, offset).code == 400
    ensures CreateBooking(db, userId, tutorId, startAt, offset).db == db
  {
  }

  /** 18:00 UTC on Monday 1970-01-05: a Monday, at "18:00", and 30 minutes later at 18:30. */
  lemma MondayEvening(start: int)
    requires start == 4 * DAY_MS + 18 * 60 * MINUTE_MS
    ensures Weekday(start, 0) == 1 && HhMm(start) == "18:00"
    ensures MinuteOfDay(start + LESSON_MS) == 18 * 60 + 30
  {
    assert MinuteOfDay(start) == 18 * 60;
    assert Pad2(18) == "18" && Pad2(0) == "00";
  }

  /** Both bounds are inclusive: a lesson may start exactly at a window's end
      and so run 30 minutes past it. Shown on a Monday window 16:00-18:00 and a
      start at 18:00 UTC on Monday 1970-01-05. */
  lemma CreateAcceptsStartAtWindowEnd()
    ensures var start := 4 * DAY_MS + 18 * 60 * MINUTE_MS;
      var db := Db(map[], 1, [Availability(7, 1, "16:00", "18:00")], map[], 1, map[3 := 5], map[]);
      var r := CreateBooking(db, 3, Some(7), At(start), 0);
      && r.code == 201
      && MinuteOfDay(r.body.booking.endAt) == 18 * 60 + 30
  {
    var start := 4 * DAY_MS + 18 * 60 * MINUTE_MS;
    var db := Db(map[], 1, [Availability(7, 1, "16:00", "18:00")], map[], 1, map[3 := 5], map[]);
    MondayEvening(start);
    HhMmOrder("16:00", "18:00");
    HhMmOrder("18:00", "18:00");
    assert RowMatches(db.availability[0], 7, 1, HhMm(start));
    assert AvailableAt(db.availability, 7, start, 0);
    assert !HasConflict(db.bookings, 7, start, start + LESSON_MS);
  }
}

=== FILE: clock.dfy ===
/** Time as the back end and front end see it: JavaScript Date values are
    integer milliseconds since 1970-01-01T00:00:00Z. A lesson lasts 30 minutes. */
module Clock {
  import opened Text

  const MINUTE_MS: int := 60000
  const DAY_MS: int := 86400000
  const LESSON_MINUTES: int := 30
  const LESSON_MS: int := LESSON_MINUTES * MINUTE_MS

  /** 1970-01-01 was a Thursday (Sunday = 0). */
  const EPOCH_WEEKDAY: int := 4

  /** Date.prototype.getDay in a zone `offset` milliseconds east of UTC (0 = Sunday).
      Dafny's `/` floors for a positive divisor, as the calendar does before 1970. */
  function Weekday(t: int, offset: int): (d: int)
    ensures 0 <= d < 7
  {
    ((t + offset) / DAY_MS + EPOCH_WEEKDAY) % 7
  }

  /** One day later is the next weekday, Saturday (6) wrapping to Sunday (0). */
  lemma WeekdayNextDay(t: int, offset: int)
    ensures Weekday(t + DAY_MS, offset) == (Weekday(t, offset) + 1) % 7
  {
    var q := (t + offset) / DAY_MS;
    var m := (t + offset) % DAY_MS;
    assert t + offset + DAY_MS == (q + 1) * DAY_MS + m;
    assert (t + offset + DAY_MS) / DAY_MS == q + 1;
  }

  /** Minutes since UTC midnight. */
  function MinuteOfDay(t: int): (m: int)
    ensures 0 <= m < 24 * 60
  {
    (t % DAY_MS) / MINUTE_MS
  }

  function Pad2(n: nat): (r: string)
    requires n < 100
    ensures |r| == 2
  {
    [DigitChar(n / 10), DigitChar(n % 10)]
  }

  function DigitValue(c: char): int
  {
    c as int - '0' as int
  }

  predicate IsDigit(c: char)
  {
    '0' <= c <= '9'
  }

  /** A zero-padded 24-hour wall-clock text "HH:mm". */
  ghost predicate IsHhMm(s: string)
  {
    && |s| == 5 && s[2] == ':'
    && IsDigit(s[0]) && IsDigit(s[1]) && IsDigit(s[3]) && IsDigit(s[4])
    && DigitValue(s[0]) * 10 + DigitValue(s[1]) < 24
    && DigitValue(s[3]) < 6
  }

  /** The minute of the day an "HH:mm" text denotes. */
  function MinutesOf(s: string): int
    requires |s| == 5
  {
    (DigitValue(s[0]) * 10 + DigitValue(s[1])) * 60 + DigitValue(s[3]) * 10 + DigitValue(s[4])
  }

  /** The UTC "HH:mm" of an instant, hours and minutes zero-padded to two digits
      each, as the time part of its ISO timestamp shows them. */
  function HhMm(t: int): (r: string)
    ensures IsHhMm(r)
    ensures MinutesOf(r) == MinuteOfDay(t)
  {
    var m := MinuteOfDay(t);
    Pad2(m / 60) + ":" + Pad2(m % 60)
  }

  lemma StrLeStep(a: string, b: string)
    requires |a| > 0 && |b| > 0
    ensures StrLe(a, b) <==> a[0] < b[0] || (a[0] == b[0] && StrLe(a[1..], b[1..]))
  {
  }

  /** Comparing two "HH:mm" texts as strings (as the availability query does)
      agrees with comparing the times they denote. */
  lemma {:induction false} HhMmOrder(a: string, b: string)
    requires IsHhMm(a) && IsHhMm(b)
    ensures StrLe(a, b) <==> MinutesOf(a) <= MinutesOf(b)
  {
    StrLeStep(a, b);
    StrLeStep(a[1..], b[1..]);
    StrLeStep(a[2..], b[2..]);
    StrLeStep(a[3..], b[3..]);
    StrLeStep(a[4..], b[4..]);
    assert a[1..][1..] == a[2..] && b[1..][1..] == b[2..];
    assert a[2..][1..] == a[3..] && b[2..][1..] == b[3..];
    assert a[3..][1..] == a[4..] && b[3..][1..] == b[4..];
    assert a[4..][1..] == [] && b[4..][1..] == [];
  }
}

=== FILE: flashcard_editor.dfy ===
/** The tutor's flashcard editor: how the page's list of sets and its
    selection change after each action. What the server answers is a
    parameter: `None` stands for a failed request, after which the page shows
    an error and the list is unchanged; `confirmed` is the answer to the
    browser's confirmation dialog. */
module Editor {
  import opened Wrappers
  import opened Seqs
  import opened Text
  import opened Deck

  /** `toggleStudentSelection`: an id already selected is removed (every
      occurrence of it); any other id is appended. */
  function ToggleStudent(ids: seq<int>, id: int): (r: seq<int>)
    ensures id in ids ==> id !in r && IsSubsequence(r, ids)
    ensures id in ids ==> forall i :: 0 <= i < |ids| && ids[i] != id ==> ids[i] in r
    ensures id !in ids ==> r == ids + [id]
  {
    if id in ids then Filter(ids, x => x != id) else ids + [id]
  }

  /** Toggling an id that was not selected twice gives back the selection. */
  lemma ToggleTwiceRestores(ids: seq<int>, id: int)
    requires id !in ids
    ensures ToggleStudent(ToggleStudent(ids, id), id) == ids
  {
    FilterAppend(ids, [id], x => x != id);
    FilterAll(ids, x => x != id);
    assert Filter([id], x => x != id) == [];
  }

  /** The page state: the sets in display order and the selected set's id. */
  datatype EditorState = EditorState(sets: seq<CardSet>, selected: Option<int>)

  /** The set the page works on: the first set with the selected id. */
  function SelectedSet(st: EditorState): Option<CardSet>
  {
    FindSet(st.sets, st.selected)
  }

  /** `handleCreateSet`: a blank name does nothing; otherwise the server gets
      the trimmed name, and the set it returns goes first and is selected. */
  function CreateSet(st: EditorState, name: string, created: Option<CardSet>): (r: EditorState)
    ensures Trim(name) == "" || created.None? ==> r == st
    ensures Trim(name) != "" && created.Some? ==>
      r.sets == [created.value] + st.sets && r.selected == Some(created.value.id)
    ensures Trim(name) != "" && created.Some? ==> SelectedSet(r) == created
  {
    if Trim(name) == "" || created.None? then st
    else EditorState([created.value] + st.sets, Some(created.value.id))
  }

  /** A set with `card` in front of its cards. */
  function WithCard(s: CardSet, card: Card): (r: CardSet)
    ensures r.id == s.id && r.name == s.name && Cards(r) == [card] + Cards(s)
  {
    s.(flashcards := Some([card] + Cards(s)))
  }

  /** `handleCreateCard`: with a set selected and both sides non-blank, the card
      the server returns goes in front of the cards of the selected set; every
      other set is left as it was. */
  function CreateCard(st: EditorState, front: string, back: string, created: Option<Card>): (r: EditorState)
    ensures SelectedSet(st).None? || Trim(front) == "" || Trim(back) == "" || created.None? ==> r == st
    ensures r.selected == st.selected && |r.sets| == |st.sets|
    ensures SelectedSet(st).Some? && Trim(front) != "" && Trim(back) != "" && created.Some? ==>
      forall i :: 0 <= i < |st.sets| ==>
        r.sets[i] == if st.sets[i].id == SelectedSet(st).value.id then WithCard(st.sets[i], created.value) else st.sets[i]
  {
    var sel := SelectedSet(st);
    if sel.None? || Trim(front) == "" || Trim(back) == "" || created.None? then st
    else st.(sets := AddCardTo(st.sets, sel.value.id, created.value))
  }

  /** Every set with id `id` gets `card` in front of its cards. */
  function AddCardTo(sets: seq<CardSet>, id: int, card: Card): (r: seq<CardSet>)
    ensures |r| == |sets|
    ensures forall i :: 0 <= i < |r| ==> r[i] == if sets[i].id == id then WithCard(sets[i], card) else sets[i]
  {
    seq(|sets|, i requires 0 <= i < |sets| => if sets[i].id == id then WithCard(sets[i], card) else sets[i])
  }

  /** Adding a card to the sets with id `id` adds it to the first of them. */
  lemma {:induction false} FindAddCard(sets: seq<CardSet>, id: int, card: Card)
    ensures var before := FindSet(sets, Some(id));
      var after := FindSet(AddCardTo(sets, id, card), Some(id));
      after.Some? == before.Some? && (before.Some? ==> after.value == WithCard(before.value, card))
  {
    if |sets| > 0 {
      var r := AddCardTo(sets, id, card);
      assert r[1..] == AddCardTo(sets[1..], id, card);
      FindAddCard(sets[1..], id, card);
    }
  }

  /** Once the card is added, the selected set shows it first, followed by the
      cards it had; the selection still names a set of the same id. */
  lemma CreateCardShowsCard(st: EditorState, front: string, back: string, created: Option<Card>)
    ensures var r := CreateCard(st, front, back, created);
      SelectedSet(r).Some? == SelectedSet(st).Some?
    ensures var r := CreateCard(st, front, back, created);
      SelectedSet(st).Some? && Trim(front) != "" && Trim(back) != "" && created.Some? ==>
        && SelectedSet(r).value.id == SelectedSet(st).value.id
        && SelectedSet(r).value.name == SelectedSet(st).value.name
        && Cards(SelectedSet(r).value) == [created.value] + Cards(SelectedSet(st).value)
  {
    var sel := SelectedSet(st);
    if sel.Some? && Trim(front) != "" && Trim(back) != "" && created.Some? {
      FindAddCard(st.sets, sel.value.id, created.value);
    }
  }

  /** Every card with id `cardId` replaced by `updated`. */
  function ReplaceCard(cards: seq<Card>, cardId: int, updated: Card): (r: seq<Card>)
    ensures |r| == |cards|
    ensures forall k :: 0 <= k < |r| ==> r[k] == if cards[k].id == cardId then updated else cards[k]
  {
    seq(|cards|, k requires 0 <= k < |cards| => if cards[k].id == cardId then updated else cards[k])
  }

  /** `saveEditCard`: with both sides non-blank, the card the server returns
      replaces every card with the edited id, in every set; the sets keep
      their ids, names and order. */
  function SaveEdit(st: EditorState, cardId: int, front: string, back: string, updated: Option<Card>): (r: EditorState)
    ensures Trim(front) == "" || Trim(back) == "" || updated.None? ==> r == st
    ensures r.selected == st.selected && |r.sets| == |st.sets|
    ensures forall i :: 0 <= i < |r.sets| ==> r.sets[i].id == st.sets[i].id && r.sets[i].name == st.sets[i].name
    ensures Trim(front) != "" && Trim(back) != "" && updated.Some? ==>
      forall i :: 0 <= i < |r.sets| ==> Cards(r.sets[i]) == ReplaceCard(Cards(st.sets[i]), cardId, updated.value)
  {
    if Trim(front) == "" || Trim(back) == "" || updated.None? then st
    else
      st.(sets := seq(|st.sets|, i requires 0 <= i < |st.sets| =>
        st.sets[i].(flashcards := Some(ReplaceCard(Cards(st.sets[i]), cardId, updated.value)))))
  }

  /** Replacing a card that is not there changes no card. */
  lemma ReplaceAbsentCard(cards: seq<Card>, cardId: int, updated: Card)
    requires forall k :: 0 <= k < |cards| ==> cards[k].id != cardId
    ensures ReplaceCard(cards, cardId, updated) == cards
  {
  }

  /** `deleteCard`: once confirmed and deleted on the server, every card with
      that id leaves the selected set; other sets keep theirs. */
  function DeleteCard(st: EditorState, cardId: int, confirmed: bool, deleted: bool): (r: EditorState)
    ensures SelectedSet(st).None? || !confirmed || !deleted ==> r == st
    ensures r.selected == st.selected && |r.sets| == |st.sets|
    ensures SelectedSet(st).Some? && confirmed && deleted ==> forall i :: 0 <= i < |st.sets| ==>
      if st.sets[i].id == SelectedSet(st).value.id then
        && r.sets[i].id == st.sets[i].id && r.sets[i].name == st.sets[i].name
        && IsSubsequence(Cards(r.sets[i]), Cards(st.sets[i]))
        && (forall k :: 0 <= k < |Cards(r.sets[i])| ==> Cards(r.sets[i])[k].id != cardId)
        && (forall k :: 0 <= k < |Cards(st.sets[i])| && Cards(st.sets[i])[k].id != cardId ==>
              Cards(st.sets[i])[k] in Cards(r.sets[i]))
      else r.sets[i] == st.sets[i]
  {
    var sel := SelectedSet(st);
    if sel.None? || !confirmed || !deleted then st
    else
      st.(sets := seq(|st.sets|, i requires 0 <= i < |st.sets| =>
        if st.sets[i].id == sel.value.id
        then st.sets[i].(flashcards := Some(Filter(Cards(st.sets[i]), (c: Card) => c.id != cardId)))
        else st.sets[i]))
  }

  /** `handleDeleteSet`: once confirmed and deleted on the server, every set
      with the selected id leaves the list, and the first remaining set is
      selected, or none when the list is empty. */
  function DeleteSet(st: EditorState, confirmed: bool, deleted: bool): (r: EditorState)
    ensures SelectedSet(st).None? || !confirmed || !deleted ==> r == st
    ensures SelectedSet(st).Some? && confirmed && deleted ==>
      && IsSubsequence(r.sets, st.sets)
      && (forall i :: 0 <= i < |r.sets| ==> r.sets[i].id != SelectedSet(st).value.id)
      && (forall i :: 0 <= i < |st.sets| && st.sets[i].id != SelectedSet(st).value.id ==> st.sets[i] in r.sets)
      && (r.selected.None? <==> r.sets == [])
      && (r.sets != [] ==> r.selected == Some(r.sets[0].id))
  {
    var sel := SelectedSet(st);
    if sel.None? || !confirmed || !deleted then st
    else
      var rest := Filter(st.sets, (s: CardSet) => s.id != sel.value.id);
      EditorState(rest, if |rest| == 0 then None else Some(rest[0].id))
  }

  /** After a set is deleted, the selection again names a set of the list
      whenever the list is not empty. */
  lemma DeleteSetReselects(st: EditorState)
    requires SelectedSet(st).Some?
    ensures var r := DeleteSet(st, true, true);
      r.sets != [] ==> SelectedSet(r) == Some(r.sets[0])
  {
  }

  /** A set under a new name. */
  function Renamed(s: CardSet, name: string): (r: CardSet)
    ensures r.id == s.id && r.name == name && Cards(r) == Cards(s)
  {
    s.(name := name)
  }

  /** `saveEditSetName`: with a set selected and a non-blank name, every set
      with the selected id takes the name the server returns; nothing else
      changes. */
  function RenameSet(st: EditorState, name: string, updatedName: Option<string>): (r: EditorState)
    ensures SelectedSet(st).None? || Trim(name) == "" || updatedName.None? ==> r == st
    ensures r.selected == st.selected && |r.sets| == |st.sets|
    ensures forall i :: 0 <= i < |r.sets| ==> r.sets[i].id == st.sets[i].id && Cards(r.sets[i]) == Cards(st.sets[i])
    ensures SelectedSet(st).Some? && Trim(name) != "" && updatedName.Some? ==> forall i :: 0 <= i < |r.sets| ==>
      r.sets[i].name == if st.sets[i].id == SelectedSet(st).value.id then updatedName.value else st.sets[i].name
  {
    var sel := SelectedSet(st);
    if sel.None? || Trim(name) == "" || updatedName.None? then st
    else st.(sets := RenameAll(st.sets, sel.value.id, updatedName.value))
  }

  /** Every set with id `id` under the name `name`. */
  function RenameAll(sets: seq<CardSet>, id: int, name: string): (r: seq<CardSet>)
    ensures |r| == |sets|
    ensures forall i :: 0 <= i < |r| ==> r[i].id == sets[i].id && Cards(r[i]) == Cards(sets[i])
    ensures forall i :: 0 <= i < |r| ==> r[i].name == if sets[i].id == id then name else sets[i].name
  {
    seq(|sets|, i requires 0 <= i < |sets| => if sets[i].id == id then Renamed(sets[i], name) else sets[i])
  }

  /** Renaming the sets with id `id` renames the first of them. */
  lemma {:induction false} FindRenamed(sets: seq<CardSet>, id: int, name: string)
    ensures var before := FindSet(sets, Some(id));
      var after := FindSet(RenameAll(sets, id, name), Some(id));
      after.Some? == before.Some? && (before.Some? ==> after.value == Renamed(before.value, name))
  {
    if |sets| > 0 {
      var r := RenameAll(sets, id, name);
      assert r[1..] == RenameAll(sets[1..], id, name);
      FindRenamed(sets[1..], id, name);
    }
  }

  /** Once renamed, the selected set carries the name the server returned and
      keeps its id and cards. */
  lemma RenameSetShowsName(st: EditorState, name: string, updatedName: Option<string>)
    ensures var r := RenameSet(st, name, updatedName);
      SelectedSet(r).Some? == SelectedSet(st).Some?
    ensures var r := RenameSet(st, name, updatedName);
      SelectedSet(st).Some? && Trim(name) != "" && updatedName.Some? ==>
        && SelectedSet(r).value.name == updatedName.value
        && SelectedSet(r).value.id == SelectedSet(st).value.id
        && Cards(SelectedSet(r).value) == Cards(SelectedSet(st).value)
  {
    var sel := SelectedSet(st);
    if sel.Some? && Trim(name) != "" && updatedName.Some? {
      FindRenamed(st.sets, sel.value.id, updatedName.value);
    }
  }
}

=== FILE: profiles.dfy ===
/** When a profile counts as filled in. The app has two definitions for a
    student: the shared profile service asks for city and grade, the student
    profile service for first and last name; both are modelled, and they are
    shown to disagree. */
module Profiles {
  import opened Wrappers
  import opened Text

  /** The fields the checks read; `subjects` is `None` when it is not an array. */
  datatype TutorProfile = TutorProfile(mode: Option<string>, subjects: Option<seq<int>>)

  datatype StudentProfile = StudentProfile(
    firstName: Option<string>,
    lastName: Option<string>,
    city: Option<string>,
    grade: Option<string>)

  /** `isTutorProfileComplete`: a mode and at least one subject. */
  predicate IsTutorProfileComplete(p: Option<TutorProfile>)
  {
    p.Some? && Truthy(p.value.mode) && p.value.subjects.Some? && |p.value.subjects.value| > 0
  }

  /** `isStudentProfileComplete` of the shared profile service: a city and a grade. */
  predicate IsStudentProfileComplete(p: Option<StudentProfile>)
  {
    p.Some? && Truthy(p.value.city) && Truthy(p.value.grade)
  }

  /** `isStudentProfileComplete` of the student profile service: a first and a last name. */
  predicate HasStudentNames(p: Option<StudentProfile>)
  {
    p.Some? && Truthy(p.value.firstName) && Truthy(p.value.lastName)
  }

  /** A tutor profile is complete exactly when it has a mode and some subject:
      adding a subject to a profile with a mode completes it, and dropping the
      mode or every subject undoes that. */
  lemma TutorCompleteness(p: TutorProfile, subject: int)
    ensures Truthy(p.mode) ==> IsTutorProfileComplete(Some(p.(subjects := Some([subject] + p.subjects.GetOr([])))))
    ensures !IsTutorProfileComplete(Some(p.(mode := None)))
    ensures !IsTutorProfileComplete(Some(p.(mode := Some(""))))
    ensures !IsTutorProfileComplete(Some(p.(subjects := Some([]))))
    ensures !IsTutorProfileComplete(Some(p.(subjects := None)))
  {
  }

  /** Under the first definition only city and grade matter, under the second
      only the names; an empty name or an empty city is as good as none. */
  lemma StudentChecksReadDifferentFields(p: StudentProfile, first: Option<string>, last: Option<string>,
                                         city: Option<string>, grade: Option<string>)
    ensures IsStudentProfileComplete(Some(p.(firstName := first, lastName := last))) == IsStudentProfileComplete(Some(p))
    ensures HasStudentNames(Some(p.(city := city, grade := grade))) == HasStudentNames(Some(p))
    ensures !HasStudentNames(Some(p.(firstName := Some(""))))
    ensures !HasStudentNames(Some(p.(lastName := Some(""))))
    ensures !IsStudentProfileComplete(Some(p.(city := Some(""))))
  {
  }

  /** The two student definitions disagree both ways. */
  lemma StudentDefinitionsDiffer()
    ensures var named := StudentProfile(Some("Anna"), Some("Nowak"), None, None);
      HasStudentNames(Some(named)) && !IsStudentProfileComplete(Some(named))
    ensures var placed := StudentProfile(None, None, Some("Kraków"), Some("3"));
      !HasStudentNames(Some(placed)) && IsStudentProfileComplete(Some(placed))
  {
  }
}

=== FILE: roster.dfy ===
/** The tutor's list of students and the student's list of tutors: both
    pages narrow the list by a name search and can hide an entry from view,
    with the same code. */
module Roster {
  import opened Wrappers
  import opened Seqs
  import opened Text

  /** A student or tutor entry; the names may be missing. */
  datatype Person = Person(id: int, firstName: Option<string>, lastName: Option<string>)

  /** A missing name reads as the empty string. */
  function NameOrEmpty(name: Option<string>): string
  {
    name.GetOr("")
  }

  /** The first and the last name joined by one space, a missing one read as
      empty. */
  function FullName(p: Person): string
  {
    NameOrEmpty(p.firstName) + " " + NameOrEmpty(p.lastName)
  }

  /** The search test: the lowercased full name, first name or last name contains `q`. */
  predicate NameMatches(p: Person, q: string)
  {
    || Contains(Lower(FullName(p)), q)
    || Contains(Lower(NameOrEmpty(p.firstName)), q)
    || Contains(Lower(NameOrEmpty(p.lastName)), q)
  }

  /** Whatever occurs in the first or the last name occurs in the full name,
      so the search matches on the full name alone. */
  lemma FullNameDecides(p: Person, q: string)
    ensures NameMatches(p, q) <==> Contains(Lower(FullName(p)), q)
  {
    var f := NameOrEmpty(p.firstName);
    var l := NameOrEmpty(p.lastName);
    LowerConcat(f, " " + l);
    LowerConcat(" ", l);
    assert FullName(p) == f + (" " + l);
    ContainsInConcat(Lower(f), Lower(" " + l), q);
    ContainsInConcat(Lower(" "), Lower(l), q);
  }

  /** `filteredStudents` / `filteredTutors`: a blank or whitespace search
      shows the list as it is; otherwise the entries that match the
      lowercased search, which is not trimmed, in their order. */
  function FilterByName(people: seq<Person>, search: string): (r: seq<Person>)
    ensures Trim(search) == "" ==> r == people
    ensures IsSubsequence(r, people)
    ensures Trim(search) != "" ==> forall i :: 0 <= i < |r| ==> NameMatches(r[i], Lower(search))
    ensures Trim(search) != "" ==> forall i :: 0 <= i < |people| && NameMatches(people[i], Lower(search)) ==> people[i] in r
  {
    if Trim(search) == "" then
      assert IsSubsequence(people, people) by {
        FilterAll(people, (p: Person) => true);
      }
      people
    else
      var q := Lower(search);
      Filter(people, (p: Person) => NameMatches(p, q))
  }

  /** `handleRemoveFromView`: every entry with that id leaves the list; the
      others stay, in order. */
  function RemoveFromView(people: seq<Person>, id: int): (r: seq<Person>)
    ensures IsSubsequence(r, people)
    ensures forall i :: 0 <= i < |r| ==> r[i].id != id
    ensures forall i :: 0 <= i < |people| && people[i].id != id ==> people[i] in r
  {
    Filter(people, (p: Person) => p.id != id)
  }

  /** Hiding an entry and searching can happen in either order: the page
      shows the same list. */
  lemma RemoveThenSearchCommute(people: seq<Person>, id: int, search: string)
    ensures FilterByName(RemoveFromView(people, id), search) == RemoveFromView(FilterByName(people, search), id)
  {
    if Trim(search) != "" {
      var q := Lower(search);
      FilterCommute(people, (p: Person) => p.id != id, (p: Person) => NameMatches(p, q));
    }
  }

  /** Hiding the same entry twice is hiding it once. */
  lemma RemoveFromViewIdempotent(people: seq<Person>, id: int)
    ensures RemoveFromView(RemoveFromView(people, id), id) == RemoveFromView(people, id)
  {
    FilterIdempotent(people, (p: Person) => p.id != id);
  }
}

=== FILE: runs.dfy ===
/** Splitting a sequence into maximal runs of linked neighbours: the shape of
    every "merge contiguous 30-minute bookings" routine of the front end. */
module Runs {
  import opened Seqs

  /** Every element of `r` is linked to the next one. */
  ghost predicate Chained<T>(r: seq<T>, link: (T, T) -> bool)
  {
    forall k :: 0 <= k < |r| - 1 ==> link(r[k], r[k + 1])
  }

  /** `runs` cuts `xs` into non-empty chained runs, and no run could be
      extended by the first element of the next one. */
  ghost predicate IsRunPartition<T>(xs: seq<T>, runs: seq<seq<T>>, link: (T, T) -> bool)
  {
    && Concat(runs) == xs
    && (forall i :: 0 <= i < |runs| ==> |runs[i]| > 0)
    && (forall i :: 0 <= i < |runs| ==> Chained(runs[i], link))
    && (forall i :: 0 <= i < |runs| - 1 ==> !link(Last(runs[i]), runs[i + 1][0]))
  }

  /** The maximal runs of `xs`, built from the front. */
  function MaximalRuns<T>(xs: seq<T>, link: (T, T) -> bool): (runs: seq<seq<T>>)
    ensures IsRunPartition(xs, runs, link)
    ensures |xs| > 0 ==> |runs| > 0 && runs[0][0] == xs[0]
  {
    if |xs| == 0 then []
    else
      var rest := MaximalRuns(xs[1..], link);
      if |rest| > 0 && link(xs[0], rest[0][0]) then
        var runs := [[xs[0]] + rest[0]] + rest[1..];
        ConsIntoFirstRun(xs, rest, link);
        runs
      else
        var runs := [[xs[0]]] + rest;
        ConsNewRun(xs, rest, link);
        runs
  }

  lemma ConsIntoFirstRun<T>(xs: seq<T>, rest: seq<seq<T>>, link: (T, T) -> bool)
    requires |xs| > 0 && IsRunPartition(xs[1..], rest, link)
    requires |rest| > 0 && link(xs[0], rest[0][0])
    ensures IsRunPartition(xs, [[xs[0]] + rest[0]] + rest[1..], link)
  {
    var runs := [[xs[0]] + rest[0]] + rest[1..];
    ConcatCons(rest[0], rest[1..]);
    assert [rest[0]] + rest[1..] == rest;
    ConcatCons([xs[0]] + rest[0], rest[1..]);
    assert xs == [xs[0]] + xs[1..];
    forall i | 0 <= i < |runs| - 1 ensures !link(Last(runs[i]), runs[i + 1][0]) {
      assert runs[i + 1] == rest[i + 1];
      if i > 0 {
        assert runs[i] == rest[i];
      } else {
        assert Last(runs[0]) == Last(rest[0]);
      }
    }
    forall i | 0 <= i < |runs| ensures Chained(runs[i], link) {
      if i > 0 {
        assert runs[i] == rest[i];
      } else {
        var r := runs[0];
        forall k | 0 <= k < |r| - 1 ensures link(r[k], r[k + 1]) {
          if k > 0 {
            assert r[k] == rest[0][k - 1] && r[k + 1] == rest[0][k];
          }
        }
      }
    }
  }

  lemma ConsNewRun<T>(xs: seq<T>, rest: seq<seq<T>>, link: (T, T) -> bool)
    requires |xs| > 0 && IsRunPartition(xs[1..], rest, link)
    requires |rest| > 0 ==> !link(xs[0], rest[0][0])
    ensures IsRunPartition(xs, [[xs[0]]] + rest, link)
  {
    var runs := [[xs[0]]] + rest;
    ConcatCons([xs[0]], rest);
    assert xs == [xs[0]] + xs[1..];
    forall i | 0 <= i < |runs| - 1 ensures !link(Last(runs[i]), runs[i + 1][0]) {
      assert runs[i + 1] == rest[i];
      if i > 0 {
        assert runs[i] == rest[i - 1];
      }
    }
    forall i | 0 <= i < |runs| ensures Chained(runs[i], link) {
      if i > 0 {
        assert runs[i] == rest[i - 1];
      }
    }
  }

  /** A chained run stays chained when an element linked to its last one is appended. */
  lemma ChainedAppend<T>(r: seq<T>, x: T, link: (T, T) -> bool)
    requires |r| > 0 && Chained(r, link) && link(Last(r), x)
    ensures Chained(r + [x], link)
  {
    var r' := r + [x];
    forall k | 0 <= k < |r'| - 1 ensures link(r'[k], r'[k + 1]) {
      if k < |r| - 1 {
        assert r'[k] == r[k] && r'[k + 1] == r[k + 1];
      }
    }
  }

  /** A run partition of `xs + [x]`: `x` joins the last run. */
  lemma ExtendLastRun<T>(xs: seq<T>, runs: seq<seq<T>>, x: T, link: (T, T) -> bool)
    requires IsRunPartition(xs, runs, link)
    requires |runs| > 0 && link(Last(Last(runs)), x)
    ensures IsRunPartition(xs + [x], runs[..|runs| - 1] + [Last(runs) + [x]], link)
  {
    var init := runs[..|runs| - 1];
    var last := Last(runs);
    var runs' := init + [last + [x]];
    assert Concat(runs') == xs + [x] by {
      ConcatAppend(init, last);
      assert init + [last] == runs;
      ConcatAppend(init, last + [x]);
    }
    assert forall i :: 0 <= i < |runs'| - 1 ==> runs'[i] == runs[i];
    assert forall i :: 0 <= i < |runs'| ==> |runs'[i]| > 0;
    assert forall i :: 0 <= i < |runs'| - 1 ==> !link(Last(runs'[i]), runs'[i + 1][0]) by {
      forall i | 0 <= i < |runs'| - 1 ensures !link(Last(runs'[i]), runs'[i + 1][0]) {
        assert runs'[i + 1][0] == runs[i + 1][0];
      }
    }
    assert forall i :: 0 <= i < |runs'| ==> Chained(runs'[i], link) by {
      ChainedAppend(last, x, link);
    }
  }

  /** A run partition of `xs + [x]`: `x` starts a new run. */
  lemma StartNewRun<T>(xs: seq<T>, runs: seq<seq<T>>, x: T, link: (T, T) -> bool)
    requires IsRunPartition(xs, runs, link)
    requires |runs| > 0 ==> !link(Last(Last(runs)), x)
    ensures IsRunPartition(xs + [x], runs + [[x]], link)
  {
    ConcatAppend(runs, [x]);
    var runs' := runs + [[x]];
    forall i | 0 <= i < |runs'| - 1 ensures !link(Last(runs'[i]), runs'[i + 1][0]) {
      assert runs'[i] == runs[i];
    }
    forall i | 0 <= i < |runs'| ensures Chained(runs'[i], link) {
      if i < |runs| {
        assert runs'[i] == runs[i];
      }
    }
  }

  /** The first run is determined: it is the longest chained prefix. */
  lemma FirstRunDetermined<T>(xs: seq<T>, a: seq<seq<T>>, b: seq<seq<T>>, link: (T, T) -> bool)
    requires IsRunPartition(xs, a, link) && IsRunPartition(xs, b, link)
    requires |a| > 0 && |b| > 0
    ensures a[0] == b[0]
  {
    ConcatCons(a[0], a[1..]);
    assert [a[0]] + a[1..] == a;
    ConcatCons(b[0], b[1..]);
    assert [b[0]] + b[1..] == b;
    assert a[0] == xs[..|a[0]|] && b[0] == xs[..|b[0]|];
    if |a[0]| < |b[0]| {
      var n := |a[0]|;
      assert link(b[0][n - 1], b[0][n]);
      assert |Concat(a[1..])| > 0;
      assert |a| > 1;
      assert a[1..] == [a[1]] + a[2..];
      ConcatCons(a[1], a[2..]);
      assert false;
    } else if |b[0]| < |a[0]| {
      var n := |b[0]|;
      assert link(a[0][n - 1], a[0][n]);
      assert |Concat(b[1..])| > 0;
      assert |b| > 1;
      assert b[1..] == [b[1]] + b[2..];
      ConcatCons(b[1], b[2..]);
      assert false;
    }
  }

  /** A sequence has exactly one partition into maximal runs. */
  lemma {:induction false} RunPartitionUnique<T>(xs: seq<T>, a: seq<seq<T>>, b: seq<seq<T>>, link: (T, T) -> bool)
    requires IsRunPartition(xs, a, link) && IsRunPartition(xs, b, link)
    ensures a == b
    decreases |xs|
  {
    if |a| > 0 && |b| > 0 {
      FirstRunDetermined(xs, a, b, link);
      ConcatCons(a[0], a[1..]);
      assert [a[0]] + a[1..] == a;
      ConcatCons(b[0], b[1..]);
      assert [b[0]] + b[1..] == b;
      var rest := xs[|a[0]|..];
      assert Concat(a[1..]) == rest && Concat(b[1..]) == rest;
      assert IsRunPartition(rest, a[1..], link) by {
        forall i | 0 <= i < |a[1..]| - 1 ensures !link(Last(a[1..][i]), a[1..][i + 1][0]) {
          assert a[1..][i] == a[i + 1] && a[1..][i + 1] == a[i + 2];
        }
      }
      assert IsRunPartition(rest, b[1..], link) by {
        forall i | 0 <= i < |b[1..]| - 1 ensures !link(Last(b[1..][i]), b[1..][i + 1][0]) {
          assert b[1..][i] == b[i + 1] && b[1..][i + 1] == b[i + 2];
        }
      }
      RunPartitionUnique(rest, a[1..], b[1..], link);
    }
  }

  /** The loop of the grouping routines: walk the sequence keeping the current
      run; a linked element joins it, any other element closes it and opens a
      new one. The routines start with an empty run that the first element
      fills; here that first step comes before the loop. */
  method SplitIntoRuns<T>(xs: seq<T>, link: (T, T) -> bool) returns (runs: seq<seq<T>>)
    ensures runs == MaximalRuns(xs, link)
  {
    runs := [];
    if |xs| == 0 {
      return;
    }
    var current := [xs[0]];
    StartNewRun([], [], xs[0], link);
    assert xs[..1] == [] + [xs[0]];
    for i := 1 to |xs|
      invariant |current| > 0
      invariant IsRunPartition(xs[..i], runs + [current], link)
    {
      var x := xs[i];
      assert xs[..i + 1] == xs[..i] + [x];
      if link(Last(current), x) {
        assert Last(runs + [current]) == current;
        ExtendLastRun(xs[..i], runs + [current], x, link);
        assert (runs + [current])[..|runs|] == runs;
        current := current + [x];
      } else {
        StartNewRun(xs[..i], runs + [current], x, link);
        runs := runs + [current];
        current := [x];
      }
    }
    assert xs[..|xs|] == xs;
    runs := runs + [current];
    RunPartitionUnique(xs, runs, MaximalRuns(xs, link), link);
  }

  /** Where run `k` sits in the concatenation: right after runs 0..k-1. */
  lemma RunPosition<T>(runs: seq<seq<T>>, k: nat)
    requires k < |runs|
    ensures Concat(runs) == Concat(runs[..k]) + runs[k] + Concat(runs[k + 1..])
    ensures |Concat(runs[..k + 1])| == |Concat(runs[..k])| + |runs[k]|
    ensures forall j :: 0 <= j < |runs[k]| ==> Concat(runs)[|Concat(runs[..k])| + j] == runs[k][j]
  {
    ConcatSplit(runs, k);
    assert runs[k..] == [runs[k]] + runs[k + 1..];
    ConcatCons(runs[k], runs[k + 1..]);
    assert runs[..k + 1] == runs[..k] + [runs[k]];
    ConcatAppend(runs[..k], runs[k]);
  }

  /** Every element of every run occurs in the concatenation. */
  lemma InConcat<T>(runs: seq<seq<T>>, k: nat, j: nat)
    requires k < |runs| && j < |runs[k]|
    ensures runs[k][j] in Concat(runs)
  {
    RunPosition(runs, k);
    assert Concat(runs)[|Concat(runs[..k])| + j] == runs[k][j];
  }
}

=== FILE: seqs.dfy ===
/** Sequence utilities shared by the front-end list operations:
    filtering, sub-sequences, concatenation of runs and a stable insertion sort. */
module Seqs {

  /** Array.prototype.filter on an immutable sequence. */
  function Filter<T>(xs: seq<T>, keep: T -> bool): (r: seq<T>)
    ensures |r| <= |xs|
    ensures forall i :: 0 <= i < |r| ==> r[i] in xs && keep(r[i])
    ensures forall i :: 0 <= i < |xs| && keep(xs[i]) ==> xs[i] in r
    ensures IsSubsequence(r, xs)
    ensures multiset(r) <= multiset(xs)
    ensures forall i :: 0 <= i < |xs| && keep(xs[i]) ==> multiset(r)[xs[i]] == multiset(xs)[xs[i]]
  {
    if |xs| == 0 then []
    else
      var rest := Filter(xs[1..], keep);
      FilterStep(xs[0], xs[1..], rest, keep);
      assert xs == [xs[0]] + xs[1..];
      if keep(xs[0]) then [xs[0]] + rest else rest
  }

  /** What `Filter` promises carries over from the tail to the whole sequence
      when the head is kept or dropped. */
  lemma FilterStep<T>(h: T, tail: seq<T>, rest: seq<T>, keep: T -> bool)
    requires |rest| <= |tail|
    requires forall i :: 0 <= i < |rest| ==> rest[i] in tail && keep(rest[i])
    requires forall i :: 0 <= i < |tail| && keep(tail[i]) ==> tail[i] in rest
    requires IsSubsequence(rest, tail)
    requires multiset(rest) <= multiset(tail)
    requires forall i :: 0 <= i < |tail| && keep(tail[i]) ==> multiset(rest)[tail[i]] == multiset(tail)[tail[i]]
    ensures var xs := [h] + tail;
      var r := if keep(h) then [h] + rest else rest;
      && |r| <= |xs|
      && (forall i :: 0 <= i < |r| ==> r[i] in xs && keep(r[i]))
      && (forall i :: 0 <= i < |xs| && keep(xs[i]) ==> xs[i] in r)
      && IsSubsequence(r, xs)
      && multiset(r) <= multiset(xs)
      && (forall i :: 0 <= i < |xs| && keep(xs[i]) ==> multiset(r)[xs[i]] == multiset(xs)[xs[i]])
  {
    var xs := [h] + tail;
    var r := if keep(h) then [h] + rest else rest;
    assert xs[1..] == tail;
    if keep(h) {
      assert r[1..] == rest;
    } else {
      SubsequenceDropHead(rest, xs);
    }
    KeptCountsStep(h, tail, rest, keep);
    forall i | 0 <= i < |xs| && keep(xs[i])
      ensures xs[i] in r
    {
      if i > 0 {
        assert xs[i] == tail[i - 1];
      }
    }
  }

  /** The element counts of a filter carry over from the tail to the whole
      sequence: a kept element occurs as often as in the input, and nothing
      occurs more often. */
  lemma KeptCountsStep<T>(h: T, tail: seq<T>, rest: seq<T>, keep: T -> bool)
    requires multiset(rest) <= multiset(tail)
    requires forall i :: 0 <= i < |tail| && keep(tail[i]) ==> multiset(rest)[tail[i]] == multiset(tail)[tail[i]]
    ensures var xs := [h] + tail;
      var r := if keep(h) then [h] + rest else rest;
      && multiset(r) <= multiset(xs)
      && forall i :: 0 <= i < |xs| && keep(xs[i]) ==> multiset(r)[xs[i]] == multiset(xs)[xs[i]]
  {
    var xs := [h] + tail;
    var r := if keep(h) then [h] + rest else rest;
    assert multiset(xs) == multiset{h} + multiset(tail);
    forall i | 0 <= i < |xs| && keep(xs[i])
      ensures multiset(r)[xs[i]] == multiset(xs)[xs[i]]
    {
      if i == 0 {
        if h in tail {
          var j :| 0 <= j < |tail| && tail[j] == h;
        } else {
          assert multiset(tail)[h] == 0;
        }
      } else {
        assert xs[i] == tail[i - 1];
      }
    }
  }

  /** `a` is obtained from `b` by deleting elements, keeping the order of the rest. */
  ghost predicate IsSubsequence<T>(a: seq<T>, b: seq<T>)
    decreases |b|
  {
    if |a| == 0 then true
    else if |b| == 0 then false
    else (a[0] == b[0] && IsSubsequence(a[1..], b[1..])) || IsSubsequence(a, b[1..])
  }

  lemma SubsequenceDropHead<T>(a: seq<T>, b: seq<T>)
    requires |b| > 0
    requires IsSubsequence(a, b[1..])
    ensures IsSubsequence(a, b)
  {
  }

  /** Filtering with a predicate that holds of every element changes nothing. */
  lemma {:induction false} FilterAll<T>(xs: seq<T>, keep: T -> bool)
    requires forall i :: 0 <= i < |xs| ==> keep(xs[i])
    ensures Filter(xs, keep) == xs
  {
    if |xs| > 0 {
      assert keep(xs[0]);
      FilterAll(xs[1..], keep);
    }
  }

  /** Applying the same filter twice is the same as applying it once. */
  lemma FilterIdempotent<T>(xs: seq<T>, keep: T -> bool)
    ensures Filter(Filter(xs, keep), keep) == Filter(xs, keep)
  {
    FilterAll(Filter(xs, keep), keep);
  }

  /** Filtering distributes over concatenation. */
  lemma {:induction false} FilterAppend<T>(a: seq<T>, b: seq<T>, keep: T -> bool)
    ensures Filter(a + b, keep) == Filter(a, keep) + Filter(b, keep)
  {
    if |a| > 0 {
      var ab := a + b;
      assert ab[0] == a[0] && ab[1..] == a[1..] + b;
      FilterAppend(a[1..], b, keep);
      if keep(a[0]) {
        calc {
          Filter(ab, keep);
          [a[0]] + Filter(a[1..] + b, keep);
          [a[0]] + (Filter(a[1..], keep) + Filter(b, keep));
          ([a[0]] + Filter(a[1..], keep)) + Filter(b, keep);
        }
      }
    } else {
      assert a + b == b;
    }
  }

  /** Two filters can be applied in either order. */
  lemma {:induction false} FilterCommute<T>(xs: seq<T>, p: T -> bool, q: T -> bool)
    ensures Filter(Filter(xs, p), q) == Filter(Filter(xs, q), p)
  {
    if |xs| > 0 {
      FilterCommute(xs[1..], p, q);
    }
  }

  /** Concatenation of a sequence of runs: Array.prototype.flat. */
  function Concat<T>(runs: seq<seq<T>>): seq<T>
  {
    if |runs| == 0 then [] else Concat(runs[..|runs| - 1]) + runs[|runs| - 1]
  }

  lemma ConcatAppend<T>(runs: seq<seq<T>>, r: seq<T>)
    ensures Concat(runs + [r]) == Concat(runs) + r
  {
    assert (runs + [r])[..|runs|] == runs;
  }

  lemma {:induction false} ConcatLength<T>(runs: seq<seq<T>>)
    ensures |Concat(runs)| == SumLengths(runs)
  {
    if |runs| > 0 {
      ConcatLength(runs[..|runs| - 1]);
    }
  }

  function SumLengths<T>(runs: seq<seq<T>>): nat
  {
    if |runs| == 0 then 0 else SumLengths(runs[..|runs| - 1]) + |runs[|runs| - 1]|
  }

  /** Concatenation splits at any boundary between runs. */
  lemma {:induction false} ConcatSplit<T>(runs: seq<seq<T>>, k: nat)
    requires k <= |runs|
    ensures Concat(runs) == Concat(runs[..k]) + Concat(runs[k..])
    decreases |runs|
  {
    if k < |runs| {
      var init := runs[..|runs| - 1];
      ConcatSplit(init, k);
      assert init[..k] == runs[..k];
      assert runs[k..] == init[k..] + [runs[|runs| - 1]];
      ConcatAppend(init[k..], runs[|runs| - 1]);
    } else {
      assert runs[..k] == runs;
      assert runs[k..] == [];
    }
  }

  lemma ConcatCons<T>(r: seq<T>, runs: seq<seq<T>>)
    ensures Concat([r] + runs) == r + Concat(runs)
  {
    ConcatSplit([r] + runs, 1);
    assert ([r] + runs)[..1] == [r];
    assert ([r] + runs)[1..] == runs;
    assert Concat([r]) == Concat([]) + r;
  }

  function Last<T>(xs: seq<T>): T
    requires |xs| > 0
  {
    xs[|xs| - 1]
  }

  /** Adjacent elements are in order under `le`. */
  ghost predicate SortedBy<T>(xs: seq<T>, le: (T, T) -> bool)
  {
    forall i :: 0 <= i < |xs| - 1 ==> le(xs[i], xs[i + 1])
  }

  /** `le` orders any two values one way or the other. */
  ghost predicate Total<T(!new)>(le: (T, T) -> bool)
  {
    forall a, b :: le(a, b) || le(b, a)
  }

  /** Inserts `x` before the first element it is not greater than. Because every
      element of `ys` came after `x` in the input, ties keep input order. */
  function Insert<T>(x: T, ys: seq<T>, le: (T, T) -> bool): (r: seq<T>)
    ensures multiset(r) == multiset(ys) + multiset{x}
    ensures |r| == |ys| + 1
  {
    if |ys| == 0 || le(x, ys[0]) then [x] + ys
    else
      assert ys == [ys[0]] + ys[1..];
      [ys[0]] + Insert(x, ys[1..], le)
  }

  /** A stable sort (as Array.prototype.sort is since ECMAScript 2019). */
  function SortBy<T>(xs: seq<T>, le: (T, T) -> bool): (r: seq<T>)
    ensures multiset(r) == multiset(xs)
    ensures |r| == |xs|
  {
    if |xs| == 0 then []
    else
      assert xs == [xs[0]] + xs[1..];
      Insert(xs[0], SortBy(xs[1..], le), le)
  }

  lemma {:induction false} InsertSorted<T(!new)>(x: T, ys: seq<T>, le: (T, T) -> bool)
    requires Total(le)
    requires SortedBy(ys, le)
    ensures SortedBy(Insert(x, ys, le), le)
    ensures |ys| > 0 ==> Insert(x, ys, le)[0] == x || Insert(x, ys, le)[0] == ys[0]
    decreases |ys|
  {
    if |ys| == 0 || le(x, ys[0]) {
    } else {
      var tail := ys[1..];
      InsertSorted(x, tail, le);
      var r := Insert(x, tail, le);
      assert le(ys[0], x);
      if |tail| > 0 {
        assert le(ys[0], tail[0]);
      }
      assert Insert(x, ys, le) == [ys[0]] + r;
    }
  }

  /** The result of SortBy is ordered and holds the same elements as the input. */
  lemma {:induction false} SortBySorted<T(!new)>(xs: seq<T>, le: (T, T) -> bool)
    requires Total(le)
    ensures SortedBy(SortBy(xs, le), le)
    ensures multiset(SortBy(xs, le)) == multiset(xs)
  {
    if |xs| > 0 {
      SortBySorted(xs[1..], le);
      InsertSorted(xs[0], SortBy(xs[1..], le), le);
    }
  }

  /** Sorting input that is already in order returns it unchanged. */
  lemma {:induction false} SortBySortedIsIdentity<T>(xs: seq<T>, le: (T, T) -> bool)
    requires SortedBy(xs, le)
    ensures SortBy(xs, le) == xs
  {
    if |xs| > 0 {
      var tail := xs[1..];
      assert SortedBy(tail, le) by {
        forall i | 0 <= i < |tail| - 1 ensures le(tail[i], tail[i + 1]) {
          assert tail[i] == xs[i + 1] && tail[i + 1] == xs[i + 2];
        }
      }
      SortBySortedIsIdentity(tail, le);
      if |tail| > 0 {
        assert le(xs[0], tail[0]);
      }
      assert [xs[0]] + tail == xs;
    }
  }
}

=== FILE: sessions.dfy ===
/** Grouping a user's bookings into sessions for the calendars: bookings are
    sorted by start, and each maximal run of back-to-back bookings with the
    same tutor, subject, mode and status becomes one session. The student
    calendar and the tutor dashboard share this routine. */
module Sessions {
  import opened Wrappers
  import opened Seqs
  import opened Runs
  import opened Text
  import opened Clock
  import opened Store

  datatype Session = Session(
    id: string,
    bookings: seq<Booking>,
    tutorId: int,
    studentId: int,
    subjectId: Option<int>,
    mode: Option<Mode>,
    status: Status,
    startAt: int,
    endAt: int,
    address: Option<string>)

  /** The sort order: earlier start first. */
  predicate StartLe(a: Booking, b: Booking)
  {
    a.startAt <= b.startAt
  }

  /** The merge condition: `next` starts when `prev` ends, for the same tutor,
      subject, mode and status (the student is not compared). */
  predicate SameLesson(prev: Booking, next: Booking)
  {
    && prev.endAt == next.startAt
    && prev.tutorId == next.tutorId
    && prev.subjectId == next.subjectId
    && prev.mode == next.mode
    && prev.status == next.status
  }

  function IdTexts(group: seq<Booking>): (r: seq<string>)
    ensures |r| == |group|
    ensures forall i :: 0 <= i < |r| ==> r[i] == IntToText(group[i].id)
  {
    seq(|group|, i requires 0 <= i < |group| => IntToText(group[i].id))
  }

  /** A session spans its group: start of the first booking to end of the last;
      its tutor, student, subject, mode and status come from the first
      booking, so does its address unless that is empty, and its id lists the
      booking ids, so splitting it on ',' gives them back. */
  function BuildSession(group: seq<Booking>): (s: Session)
    requires |group| > 0
    ensures s.bookings == group
    ensures s.startAt == group[0].startAt && s.endAt == Last(group).endAt
    ensures Split(s.id, ',') == IdTexts(group)
    ensures s.tutorId == group[0].tutorId && s.studentId == group[0].studentId
    ensures s.subjectId == group[0].subjectId && s.mode == group[0].mode && s.status == group[0].status
    ensures s.address.Some? <==> Truthy(group[0].address)
    ensures s.address.Some? ==> s.address == group[0].address
  {
    SplitJoin(IdTexts(group), ',');
    var first := group[0];
    Session(
      Join(IdTexts(group), ','),
      group,
      first.tutorId,
      first.studentId,
      first.subjectId,
      first.mode,
      first.status,
      first.startAt,
      Last(group).endAt,
      if first.address == Some("") then None else first.address)
  }

  function Groups(sessions: seq<Session>): (r: seq<seq<Booking>>)
    ensures |r| == |sessions|
    ensures forall i :: 0 <= i < |r| ==> r[i] == sessions[i].bookings
  {
    seq(|sessions|, i requires 0 <= i < |sessions| => sessions[i].bookings)
  }

  /** `groupBookingsIntoSessions`: `None` stands for a value that is not an array. */
  method GroupBookingsIntoSessions(input: Option<seq<Booking>>) returns (sessions: seq<Session>)
    ensures input.None? ==> sessions == []
    ensures input.Some? ==> Groups(sessions) == MaximalRuns(SortBy(input.value, StartLe), SameLesson)
    ensures forall k :: 0 <= k < |sessions| ==>
      |sessions[k].bookings| > 0 && sessions[k] == BuildSession(sessions[k].bookings)
  {
    if input.None? || |input.value| == 0 {
      return [];
    }
    var sorted := SortBy(input.value, StartLe);
    var runs := SplitIntoRuns(sorted, SameLesson);
    sessions := seq(|runs|, k requires 0 <= k < |runs| => BuildSession(runs[k]));
  }

  /** Start times along a start-sorted sequence never decrease. */
  lemma {:induction false} SortedStarts(xs: seq<Booking>, i: nat, j: nat)
    requires SortedBy(xs, StartLe)
    requires i <= j < |xs|
    ensures xs[i].startAt <= xs[j].startAt
    decreases j - i
  {
    if i < j {
      SortedStarts(xs, i + 1, j);
    }
  }

  predicate SessionStartLe(a: Session, b: Session)
  {
    a.startAt <= b.startAt
  }

  /** The runs of a start-sorted sequence begin in order of start. */
  lemma RunHeadsOrdered(xs: seq<Booking>, runs: seq<seq<Booking>>, k: nat)
    requires SortedBy(xs, StartLe) && Concat(runs) == xs
    requires k + 1 < |runs| && |runs[k]| > 0 && |runs[k + 1]| > 0
    ensures runs[k][0].startAt <= runs[k + 1][0].startAt
  {
    RunPosition(runs, k);
    RunPosition(runs, k + 1);
    var p := |Concat(runs[..k])|;
    var q := |Concat(runs[..k + 1])|;
    assert xs[p] == runs[k][0];
    assert xs[q] == runs[k + 1][0];
    SortedStarts(xs, p, q);
  }

  /** Concatenating the sessions' bookings gives back the input, sorted by start:
      grouping loses, adds and duplicates nothing. Each session is a non-empty
      run of back-to-back bookings, the next session's first booking does not
      continue it, and sessions come in order of start. */
  lemma SessionsPartitionInput(input: seq<Booking>, sessions: seq<Session>)
    requires Groups(sessions) == MaximalRuns(SortBy(input, StartLe), SameLesson)
    requires forall k :: 0 <= k < |sessions| ==>
      |sessions[k].bookings| > 0 && sessions[k].startAt == sessions[k].bookings[0].startAt
    ensures Concat(Groups(sessions)) == SortBy(input, StartLe)
    ensures multiset(Concat(Groups(sessions))) == multiset(input)
    ensures SortedBy(Concat(Groups(sessions)), StartLe)
    ensures forall k :: 0 <= k < |sessions| ==> Chained(sessions[k].bookings, SameLesson)
    ensures forall k :: 0 <= k < |sessions| - 1 ==>
      !SameLesson(Last(sessions[k].bookings), sessions[k + 1].bookings[0])
    ensures SortedBy(sessions, SessionStartLe)
  {
    var sorted := SortBy(input, StartLe);
    var runs := Groups(sessions);
    assert IsRunPartition(sorted, runs, SameLesson);
    assert Total(StartLe);
    SortBySorted(input, StartLe);
    forall k | 0 <= k < |sessions| ensures Chained(sessions[k].bookings, SameLesson) {
      assert sessions[k].bookings == runs[k];
    }
    forall k | 0 <= k < |sessions| - 1
      ensures !SameLesson(Last(sessions[k].bookings), sessions[k + 1].bookings[0])
    {
      assert sessions[k].bookings == runs[k] && sessions[k + 1].bookings == runs[k + 1];
    }
    forall k | 0 <= k < |sessions| - 1 ensures SessionStartLe(sessions[k], sessions[k + 1]) {
      RunHeadsOrdered(sorted, runs, k);
    }
  }

  /** Every booking of a run of back-to-back bookings shares the first one's
      tutor, subject, mode and status. */
  lemma {:induction false} RunIsUniform(run: seq<Booking>, j: nat)
    requires Chained(run, SameLesson)
    requires j < |run|
    ensures run[j].tutorId == run[0].tutorId && run[j].subjectId == run[0].subjectId
    ensures run[j].mode == run[0].mode && run[j].status == run[0].status
  {
    if j > 0 {
      RunIsUniform(run, j - 1);
      assert SameLesson(run[j - 1], run[j]);
    }
  }

  /** A session of n one-lesson bookings lasts n lessons. */
  lemma {:induction false} SessionSpan(run: seq<Booking>)
    requires |run| > 0 && Chained(run, SameLesson)
    requires forall j :: 0 <= j < |run| ==> run[j].endAt == run[j].startAt + LESSON_MS
    ensures Last(run).endAt == run[0].startAt + |run| * LESSON_MS
  {
    if |run| > 1 {
      var init := run[..|run| - 1];
      assert Chained(init, SameLesson) by {
        forall k | 0 <= k < |init| - 1 ensures SameLesson(init[k], init[k + 1]) {
          assert init[k] == run[k] && init[k + 1] == run[k + 1];
        }
      }
      SessionSpan(init);
      assert SameLesson(run[|run| - 2], run[|run| - 1]);
    }
  }

  /** Local midnight at the start of the day of `now`. */
  function StartOfDay(now: int, offset: int): int
  {
    var local := now + offset;
    local - local % DAY_MS - offset
  }

  /** From local midnight of the day of `now` up to and including its last
      millisecond, 23:59:59.999: the same local calendar day as `now`. */
  predicate IsToday(t: int, now: int, offset: int)
  {
    StartOfDay(now, offset) <= t <= StartOfDay(now, offset) + DAY_MS - 1
  }

  lemma IsTodayIffSameLocalDay(t: int, now: int, offset: int)
    ensures IsToday(t, now, offset) <==> (t + offset) / DAY_MS == (now + offset) / DAY_MS
  {
    var d := (now + offset) / DAY_MS;
    assert StartOfDay(now, offset) == d * DAY_MS - offset;
    var e := (t + offset) / DAY_MS;
    assert e * DAY_MS <= t + offset < e * DAY_MS + DAY_MS;
    if e < d {
      assert e * DAY_MS + DAY_MS <= d * DAY_MS;
    } else if e > d {
      assert d * DAY_MS + DAY_MS <= e * DAY_MS;
    }
  }

  /** Every booking of the sessions built from `xs` is one of `xs`. */
  lemma SessionBookingsFrom(xs: seq<Booking>, sessions: seq<Session>)
    requires multiset(Concat(Groups(sessions))) == multiset(xs)
    ensures forall k, j :: 0 <= k < |sessions| && 0 <= j < |sessions[k].bookings| ==> sessions[k].bookings[j] in xs
  {
    forall k, j | 0 <= k < |sessions| && 0 <= j < |sessions[k].bookings|
      ensures sessions[k].bookings[j] in xs
    {
      InConcat(Groups(sessions), k, j);
      assert sessions[k].bookings[j] in multiset(xs);
    }
  }

  predicate KeptToday(b: Booking, now: int, offset: int)
  {
    IsToday(b.startAt, now, offset) && b.status != Cancelled
  }

  /** The tutor dashboard's `todaysSessions`: bookings starting today and not
      cancelled, grouped into sessions, then sorted by start. */
  method TodaysSessions(input: Option<seq<Booking>>, now: int, offset: int) returns (sessions: seq<Session>)
    ensures input.None? ==> sessions == []
    ensures input.Some? ==>
      Groups(sessions) == MaximalRuns(SortBy(Filter(input.value, b => KeptToday(b, now, offset)), StartLe), SameLesson)
    ensures forall k, j :: 0 <= k < |sessions| && 0 <= j < |sessions[k].bookings| ==>
      KeptToday(sessions[k].bookings[j], now, offset)
    ensures SortedBy(sessions, SessionStartLe)
    ensures forall k :: 0 <= k < |sessions| ==>
      |sessions[k].bookings| > 0 && sessions[k] == BuildSession(sessions[k].bookings)
  {
    if input.None? || |input.value| == 0 {
      return [];
    }
    var todays := Filter(input.value, b => KeptToday(b, now, offset));
    var grouped := GroupBookingsIntoSessions(Some(todays));
    SessionsPartitionInput(todays, grouped);
    SessionBookingsFrom(todays, grouped);
    SortBySortedIsIdentity(grouped, SessionStartLe);
    sessions := SortBy(grouped, SessionStartLe);
  }
}

=== FILE: slot_selection.dfy ===
/** The student's booking page: which lesson modes a tutor offers, how a range
    selected in the calendar is cut into 30-minute slots and checked against
    the free slots, and the checks before the page sends one booking request
    per selected slot. */
module Selection {
  import opened Wrappers
  import opened Text
  import opened Clock
  import opened Store
  import opened Bookings

  /** `getAvailableModes`: the modes a tutor's `mode` text offers, compared
      without regard to letter case; a missing or empty text offers none. */
  function GetAvailableModes(tutorMode: Option<string>): (r: seq<Mode>)
    ensures Online in r <==> tutorMode.Some? && (Upper(tutorMode.value) == "ONLINE" || Upper(tutorMode.value) == "BOTH")
    ensures Offline in r <==> tutorMode.Some? && (Upper(tutorMode.value) == "OFFLINE" || Upper(tutorMode.value) == "BOTH")
    ensures |r| <= 2 && (|r| == 2 ==> r == [Online, Offline])
  {
    if !Truthy(tutorMode) then []
    else
      var m := Upper(tutorMode.value);
      (if m == "ONLINE" || m == "BOTH" then [Online] else [])
        + (if m == "OFFLINE" || m == "BOTH" then [Offline] else [])
  }

  lemma UpperLower(s: string)
    ensures Upper(Lower(s)) == Upper(s)
  {
    assert forall i :: 0 <= i < |s| ==> UpperChar(LowerChar(s[i])) == UpperChar(s[i]);
  }

  /** The modes do not depend on how the tutor's text is capitalised. */
  lemma ModesIgnoreCase(s: string)
    ensures GetAvailableModes(Some(Lower(s))) == GetAvailableModes(Some(s))
  {
    UpperLower(s);
  }

  /** "Both" offers the two modes, online first. */
  lemma BothOffersTwoModes()
    ensures GetAvailableModes(Some("Both")) == [Online, Offline]
  {
    assert Upper("Both") == "BOTH";
  }

  /** After the tutor loads, a tutor offering exactly one mode has it chosen. */
  function PreselectMode(tutorMode: Option<string>, chosen: Option<Mode>): (r: Option<Mode>)
    ensures r != chosen ==> r.Some? && GetAvailableModes(tutorMode) == [r.value]
    ensures |GetAvailableModes(tutorMode)| == 1 ==> r.Some? && r.value in GetAvailableModes(tutorMode)
  {
    var modes := GetAvailableModes(tutorMode);
    if |modes| == 1 then Some(modes[0]) else chosen
  }

  /** The start of the `k`-th 30-minute segment of a selection. */
  function SegmentStart(start: int, k: int): int
  {
    start + k * LESSON_MS
  }

  lemma CeilingCount(d: int, n: nat)
    requires d > 0
    requires (n - 1) * LESSON_MS < d <= n * LESSON_MS
    ensures n == (d + LESSON_MS - 1) / LESSON_MS
  {
    var q := (d + LESSON_MS - 1) / LESSON_MS;
    assert q * LESSON_MS <= d + LESSON_MS - 1 < q * LESSON_MS + LESSON_MS;
  }

  /** The segmentation loop of `handleSelect`: a cursor walks from the start
      of the selection in 30-minute steps while it is before the end. The
      segments are the starts before the end, as many as the selection
      needs 30-minute slots to cover it. */
  method Segments(start: int, end: int) returns (segs: seq<int>)
    ensures forall k :: 0 <= k < |segs| ==> segs[k] == SegmentStart(start, k) && segs[k] < end
    ensures SegmentStart(start, |segs|) >= end
    ensures end > start ==> |segs| == (end - start + LESSON_MS - 1) / LESSON_MS
    ensures end <= start ==> segs == []
  {
    segs := [];
    var cursor := start;
    while cursor < end
      invariant cursor == SegmentStart(start, |segs|)
      invariant forall k :: 0 <= k < |segs| ==> segs[k] == SegmentStart(start, k) && segs[k] < end
      invariant |segs| > 0 ==> cursor - LESSON_MS < end
      decreases end - cursor
    {
      segs := segs + [cursor];
      cursor := cursor + LESSON_MS;
    }
    if end > start {
      CeilingCount(end - start, |segs|);
    }
  }

  datatype Selection = Rejected | Selected(starts: seq<int>)

  /** `handleSelect`: the selection is kept only when every one of its
      segments starts at a free slot; then the segment starts are the
      selected slots. */
  method HandleSelect(slotStarts: set<int>, start: int, end: int) returns (sel: Selection)
    ensures sel.Selected? <==>
      forall k :: 0 <= k && SegmentStart(start, k) < end ==> SegmentStart(start, k) in slotStarts
    ensures sel.Selected? ==>
      && (forall k :: 0 <= k < |sel.starts| ==> sel.starts[k] == SegmentStart(start, k) && sel.starts[k] < end)
      && SegmentStart(start, |sel.starts|) >= end
  {
    var segs := Segments(start, end);
    if forall k :: 0 <= k < |segs| ==> segs[k] in slotStarts {
      sel := Selected(segs);
    } else {
      sel := Rejected;
    }
  }

  /** One `POST /bookings` body; the address choice is sent only for
      lessons at a place. */
  datatype BookingRequest = BookingRequest(tutorId: int, startAt: int, subjectId: int, mode: Mode, addressOption: Option<string>)

  datatype Submission = Refused(message: string) | Send(requests: seq<BookingRequest>)

  /** The checks of `handleCreateBooking`, in order: a subject, a mode, for an
      offline lesson a place, and at least one selected slot. Then one
      request per selected slot, in selection order. */
  function HandleCreateBooking(tutorId: int, subjectId: Option<int>, mode: Option<Mode>,
                               addressOption: Option<string>, selected: seq<int>): (r: Submission)
    ensures r.Send? <==>
      subjectId.Some? && mode.Some? && (mode.value == Offline ==> Truthy(addressOption)) && |selected| > 0
    ensures subjectId.None? ==> r == Refused("Wybierz przedmiot")
    ensures subjectId.Some? && mode.None? ==> r == Refused("Wybierz tryb zajęć")
    ensures subjectId.Some? && mode.Some? && mode.value == Offline && !Truthy(addressOption) ==>
      r == Refused("Wybierz miejsce zajęć (u kogo)")
    ensures subjectId.Some? && mode.Some? && (mode.value == Offline ==> Truthy(addressOption)) && |selected| == 0 ==>
      r == Refused("Zaznacz w kalendarzu zakres zajęć")
    ensures r.Send? ==> |r.requests| == |selected|
    ensures r.Send? ==> forall i :: 0 <= i < |selected| ==>
      && r.requests[i].startAt == selected[i]
      && r.requests[i].tutorId == tutorId
      && r.requests[i].subjectId == subjectId.value
      && r.requests[i].mode == mode.value
      && r.requests[i].addressOption == (if mode.value == Offline then addressOption else None)
  {
    if subjectId.None? then Refused("Wybierz przedmiot")
    else if mode.None? then Refused("Wybierz tryb zajęć")
    else if mode.value == Offline && !Truthy(addressOption) then Refused("Wybierz miejsce zajęć (u kogo)")
    else if |selected| == 0 then Refused("Zaznacz w kalendarzu zakres zajęć")
    else
      var address := if mode.value == Offline then addressOption else None;
      Send(seq(|selected|, i requires 0 <= i < |selected| =>
        BookingRequest(tutorId, selected[i], subjectId.value, mode.value, address)))
  }

  /** What sending the requests one after another did: the store after the
      last request, how many bookings were made, and the status code of the
      request that failed, if any. */
  datatype SubmitResult = SubmitResult(db: Db, created: nat, failure: Option<int>)

  /** The requests are awaited in order and the first failure ends the loop;
      bookings already made stay. The server reads only the tutor and start
      of each request. */
  function SubmitAll(db: Db, userId: int, requests: seq<BookingRequest>, offset: int): (r: SubmitResult)
    ensures r.created <= |requests|
    ensures r.failure.None? <==> r.created == |requests|
    ensures r.failure.Some? ==> r.failure.value in {400, 404, 409}
    ensures r.db.nextBookingId == db.nextBookingId + r.created
    decreases |requests|
  {
    if |requests| == 0 then SubmitResult(db, 0, None)
    else
      var o := CreateBooking(db, userId, Some(requests[0].tutorId), At(requests[0].startAt), offset);
      if o.code != 201 then SubmitResult(db, 0, Some(o.code))
      else
        var rest := SubmitAll(o.db, userId, requests[1..], offset);
        SubmitResult(rest.db, rest.created + 1, rest.failure)
  }

  /** However far the requests get, the store keeps its invariants: no two
      CONFIRMED bookings of a tutor overlap, and none is cancelled by it. */
  lemma {:induction false} SubmitAllKeepsInvariants(db: Db, userId: int, requests: seq<BookingRequest>, offset: int)
    requires WellFormed(db) && NoOverlap(db.bookings) && OneLessonEach(db.bookings)
    ensures var r := SubmitAll(db, userId, requests, offset);
      && WellFormed(r.db) && NoOverlap(r.db.bookings) && OneLessonEach(r.db.bookings)
      && CancellationsKept(db.bookings, r.db.bookings)
    decreases |requests|
  {
    if |requests| > 0 {
      var o := CreateBooking(db, userId, Some(requests[0].tutorId), At(requests[0].startAt), offset);
      CreatePreservesNoOverlap(db, userId, Some(requests[0].tutorId), At(requests[0].startAt), offset);
      CreatePreservesWellFormed(db, userId, Some(requests[0].tutorId), At(requests[0].startAt), offset);
      if o.code == 201 {
        SubmitAllKeepsInvariants(o.db, userId, requests[1..], offset);
      }
    }
  }

  /** Every stored booking id lies below the next id to hand out. */
  ghost predicate IdsBelowNext(db: Db)
  {
    forall k :: k in db.bookings ==> k < db.nextBookingId
  }

  /** Creating a booking keeps stored ids below the next one. */
  lemma CreateKeepsIdsBelowNext(db: Db, userId: int, request: BookingRequest, offset: int)
    requires IdsBelowNext(db)
    ensures IdsBelowNext(CreateBooking(db, userId, Some(request.tutorId), At(request.startAt), offset).db)
  {
  }

  /** Sending requests never touches a booking that was already stored: each
      successful request adds a booking under a fresh id. */
  lemma {:induction false} SubmitAllKeepsBookings(db: Db, userId: int, requests: seq<BookingRequest>, offset: int)
    requires IdsBelowNext(db)
    ensures var r := SubmitAll(db, userId, requests, offset);
      forall id :: id in db.bookings ==> id in r.db.bookings && r.db.bookings[id] == db.bookings[id]
    decreases |requests|
  {
    if |requests| > 0 {
      var o := CreateBooking(db, userId, Some(requests[0].tutorId), At(requests[0].startAt), offset);
      CreateKeepsIdsBelowNext(db, userId, requests[0], offset);
      if o.code == 201 {
        SubmitAllKeepsBookings(o.db, userId, requests[1..], offset);
      }
    }
  }

  /** The `n` consecutive ids from `lo` on. */
  function IdRange(lo: int, n: nat): (r: set<int>)
    ensures forall k :: k in r <==> lo <= k < lo + n
    decreases n
  {
    if n == 0 then {} else {lo} + IdRange(lo + 1, n - 1)
  }

  /** The requests add exactly the ids from `nextBookingId` on, one per booking
      made, and remove none. */
  lemma {:induction false} SubmitAllKeys(db: Db, userId: int, requests: seq<BookingRequest>, offset: int)
    ensures var r := SubmitAll(db, userId, requests, offset);
      r.db.bookings.Keys == db.bookings.Keys + IdRange(db.nextBookingId, r.created)
    decreases |requests|
  {
    if |requests| > 0 {
      var o := CreateBooking(db, userId, Some(requests[0].tutorId), At(requests[0].startAt), offset);
      if o.code == 201 {
        var rest := SubmitAll(o.db, userId, requests[1..], offset);
        SubmitAllAfterAccept(db, userId, requests, offset);
        SubmitAllKeys(o.db, userId, requests[1..], offset);
        AcceptedAddsOneKey(db, userId, requests[0], offset);
        assert IdRange(db.nextBookingId, rest.created + 1) == {db.nextBookingId} + IdRange(db.nextBookingId + 1, rest.created);
      }
    }
  }

  /** An accepted request adds the next id to the keys and moves the counter on. */
  lemma AcceptedAddsOneKey(db: Db, userId: int, request: BookingRequest, offset: int)
    requires CreateBooking(db, userId, Some(request.tutorId), At(request.startAt), offset).code == 201
    ensures var o := CreateBooking(db, userId, Some(request.tutorId), At(request.startAt), offset);
      o.db.bookings.Keys == db.bookings.Keys + {db.nextBookingId} && o.db.nextBookingId == db.nextBookingId + 1
  {
  }

  /** `bookings[id]` is the CONFIRMED one-lesson booking that `request` asks
      for, made for student profile `studentId`. */
  predicate MadeFor(bookings: map<int, Booking>, id: int, studentId: int, request: BookingRequest) {
    && id in bookings
    && bookings[id].tutorId == request.tutorId
    && bookings[id].studentId == studentId
    && bookings[id].startAt == request.startAt
    && bookings[id].endAt == request.startAt + LESSON_MS
    && bookings[id].status == Confirmed
  }

  /** One accepted request stores the booking it asks for under the next id
      and leaves the student profiles alone. */
  lemma AcceptedRequestMade(db: Db, userId: int, request: BookingRequest, offset: int)
    requires CreateBooking(db, userId, Some(request.tutorId), At(request.startAt), offset).code == 201
    ensures var o := CreateBooking(db, userId, Some(request.tutorId), At(request.startAt), offset);
      && userId in db.studentProfileOf
      && o.db.studentProfileOf == db.studentProfileOf
      && o.db.nextBookingId == db.nextBookingId + 1
      && MadeFor(o.db.bookings, db.nextBookingId, db.studentProfileOf[userId], request)
  {
  }

  /** The first `n` requests each made their booking, request `i` under id
      `base + i`. */
  predicate AllMade(bookings: map<int, Booking>, base: int, studentId: int, requests: seq<BookingRequest>, n: nat)
    requires n <= |requests|
  {
    forall i :: 0 <= i < n ==> MadeFor(bookings, base + i, studentId, requests[i])
  }

  /** Bookings made for the first request and, one id further on, for the
      later ones line up with the requests from the first id on. */
  lemma AllMadeCons(bookings: map<int, Booking>, base: int, studentId: int, requests: seq<BookingRequest>, n: nat)
    requires 0 < n <= |requests|
    requires MadeFor(bookings, base, studentId, requests[0])
    requires AllMade(bookings, base + 1, studentId, requests[1..], n - 1)
    ensures AllMade(bookings, base, studentId, requests, n)
  {
    forall i | 1 <= i < n
      ensures MadeFor(bookings, base + i, studentId, requests[i])
    {
      assert base + 1 + (i - 1) == base + i && requests[1..][i - 1] == requests[i];
    }
  }

  /** A booking that stays in the store stays made. */
  lemma MadeForKept(bookings: map<int, Booking>, later: map<int, Booking>, id: int, studentId: int, request: BookingRequest)
    requires forall k :: k in bookings ==> k in later && later[k] == bookings[k]
    requires MadeFor(bookings, id, studentId, request)
    ensures MadeFor(later, id, studentId, request)
  {
  }

  /** The `i`-th counted request made the booking with id `nextBookingId + i`: a
      CONFIRMED lesson of the caller's student profile with the requested tutor,
      starting at the requested instant. */
  lemma {:induction false} SubmitAllCreatesRequested(db: Db, userId: int, requests: seq<BookingRequest>, offset: int)
    requires IdsBelowNext(db)
    ensures var r := SubmitAll(db, userId, requests, offset);
      r.created > 0 ==>
        && userId in db.studentProfileOf
        && AllMade(r.db.bookings, db.nextBookingId, db.studentProfileOf[userId], requests, r.created)
    decreases |requests|
  {
    var r := SubmitAll(db, userId, requests, offset);
    if |requests| > 0 {
      var o := CreateBooking(db, userId, Some(requests[0].tutorId), At(requests[0].startAt), offset);
      CreateKeepsIdsBelowNext(db, userId, requests[0], offset);
      if o.code == 201 {
        var tail := requests[1..];
        var rest := SubmitAll(o.db, userId, tail, offset);
        SubmitAllAfterAccept(db, userId, requests, offset);
        AcceptedRequestMade(db, userId, requests[0], offset);
        var sid := db.studentProfileOf[userId];
        SubmitAllKeepsBookings(o.db, userId, tail, offset);
        MadeForKept(o.db.bookings, r.db.bookings, db.nextBookingId, sid, requests[0]);
        SubmitAllCreatesRequested(o.db, userId, tail, offset);
        AllMadeCons(r.db.bookings, db.nextBookingId, sid, requests, r.created);
      }
    }
  }

  /** Once the first request is accepted, the rest are sent to the store it
      left and the count goes up by one. */
  lemma SubmitAllAfterAccept(db: Db, userId: int, requests: seq<BookingRequest>, offset: int)
    requires |requests| > 0
    requires CreateBooking(db, userId, Some(requests[0].tutorId), At(requests[0].startAt), offset).code == 201
    ensures var o := CreateBooking(db, userId, Some(requests[0].tutorId), At(requests[0].startAt), offset);
      var rest := SubmitAll(o.db, userId, requests[1..], offset);
      SubmitAll(db, userId, requests, offset) == SubmitResult(rest.db, rest.created + 1, rest.failure)
  {
  }

  /** A failure is the answer `CreateBooking` gives to request number
      `created` on the store the earlier requests left, and the loop stops
      with that store. */
  lemma {:induction false} SubmitAllStopsAtFirstFailure(db: Db, userId: int, requests: seq<BookingRequest>, offset: int)
    ensures var r := SubmitAll(db, userId, requests, offset);
      r.failure.Some? ==>
        && r.created < |requests|
        && var before := SubmitAll(db, userId, requests[..r.created], offset);
        && before.failure.None? && before.db == r.db
        && r.failure.value == CreateBooking(before.db, userId, Some(requests[r.created].tutorId), At(requests[r.created].startAt), offset).code
    decreases |requests|
  {
    var r := SubmitAll(db, userId, requests, offset);
    if |requests| > 0 {
      var o := CreateBooking(db, userId, Some(requests[0].tutorId), At(requests[0].startAt), offset);
      if o.code != 201 {
        assert requests[..0] == [];
      } else {
        var tail := requests[1..];
        var rest := SubmitAll(o.db, userId, tail, offset);
        SubmitAllAfterAccept(db, userId, requests, offset);
        if rest.failure.Some? {
          SubmitAllStopsAtFirstFailure(o.db, userId, tail, offset);
          var k := rest.created;
          var prefix := requests[..k + 1];
          assert prefix[0] == requests[0] && prefix[1..] == tail[..k];
          SubmitAllAfterAccept(db, userId, prefix, offset);
          assert requests[r.created] == tail[k];
        }
      }
    }
  }
}

=== FILE: store.dfy ===
/** The persisted state the booking handlers work on: bookings, weekly
    availability rows, unavailability exceptions, and the profiles that map a
    logged-in user to a student or tutor. */
module Store {
  import opened Wrappers
  import opened Clock

  datatype Status = Confirmed | Cancelled

  /** A booking's mode once resolved (the tutor's BOTH is never stored on a booking). */
  datatype Mode = Online | Offline

  datatype Booking = Booking(
    id: int,
    tutorId: int,
    studentId: int,
    subjectId: Option<int>,
    mode: Option<Mode>,
    address: Option<string>,
    startAt: int,
    endAt: int,
    status: Status)

  /** A recurring weekly window: day of week (0 = Sunday) and "HH:mm" bounds. */
  datatype Availability = Availability(tutorId: int, dayOfWeek: int, startTime: string, endTime: string)

  /** An ad-hoc absence of a tutor. */
  datatype Unavailability = Unavailability(id: int, tutorId: int, startAt: int, endAt: int, reason: Option<string>)

  datatype Db = Db(
    bookings: map<int, Booking>,
    nextBookingId: int,
    availability: seq<Availability>,
    exceptions: map<int, Unavailability>,
    nextExceptionId: int,
    studentProfileOf: map<int, int>,  // user id -> student profile id
    tutorProfileOf: map<int, int>)    // user id -> tutor profile id

  /** A request body field holding a date: absent or falsy, not a date, or an instant. */
  datatype DateField = Missing | Unparseable | At(ms: int)

  datatype Body =
    | BookingBody(booking: Booking)
    | CascadeBody(unavailability: Unavailability, cancelledBookings: nat)
    | SuccessBody
    | ErrorBody(message: string)

  /** The HTTP status and body a handler answers with, and the store after it. */
  datatype Outcome = Outcome(code: int, body: Body, db: Db)

  /** Half-open intervals [aStart, aEnd) and [bStart, bEnd) intersect. */
  predicate Overlaps(aStart: int, aEnd: int, bStart: int, bEnd: int)
  {
    aStart < bEnd && aEnd > bStart
  }

  /** The central invariant: no two CONFIRMED bookings of one tutor overlap. */
  ghost predicate NoOverlap(bookings: map<int, Booking>)
  {
    forall i, j :: i in bookings && j in bookings && i != j
      && bookings[i].tutorId == bookings[j].tutorId
      && bookings[i].status == Confirmed && bookings[j].status == Confirmed
      ==> !Overlaps(bookings[i].startAt, bookings[i].endAt, bookings[j].startAt, bookings[j].endAt)
  }

  /** Auto-increment ids: every stored row carries its key, below the next id to hand out. */
  ghost predicate WellFormed(db: Db)
  {
    && 1 <= db.nextBookingId
    && 1 <= db.nextExceptionId
    && (forall k :: k in db.bookings ==> 1 <= k < db.nextBookingId && db.bookings[k].id == k)
    && (forall k :: k in db.exceptions ==> 1 <= k < db.nextExceptionId && db.exceptions[k].id == k)
  }

  /** Every booking lasts exactly one lesson. */
  ghost predicate OneLessonEach(bookings: map<int, Booking>)
  {
    forall k :: k in bookings ==> bookings[k].endAt == bookings[k].startAt + LESSON_MS
  }

  /** Cancellation is final: every booking cancelled in `before` is still
      present, still cancelled and otherwise unchanged in `after`. */
  ghost predicate CancellationsKept(before: map<int, Booking>, after: map<int, Booking>)
  {
    forall k :: k in before && before[k].status == Cancelled ==> k in after && after[k] == before[k]
  }
}

=== FILE: study_deck.dfy ===
/** The student's flashcard page: the sets with their cards, the search that
    narrows the cards of every set, the shuffled learning deck with its
    carousel (next, previous, random card, flip), and the pages of the card
    list. */
module Deck {
  import opened Wrappers
  import opened Seqs
  import opened Text

  datatype Card = Card(id: int, front: string, back: string)

  /** A flashcard set; `flashcards` may be absent in a response. */
  datatype CardSet = CardSet(id: int, name: string, flashcards: Option<seq<Card>>)

  /** The cards of a set; a set whose card list is absent has none. */
  function Cards(s: CardSet): seq<Card>
  {
    s.flashcards.GetOr([])
  }

  /** The selected set: the first set, in list order, whose id is the selected
      id; none when nothing is selected or no set has that id. */
  function FindSet(sets: seq<CardSet>, id: Option<int>): (r: Option<CardSet>)
    ensures r.Some? <==> id.Some? && exists i :: 0 <= i < |sets| && sets[i].id == id.value
    ensures r.Some? ==> r.value in sets && r.value.id == id.value
    ensures r.Some? ==> exists i :: 0 <= i < |sets| && sets[i] == r.value && forall j :: 0 <= j < i ==> sets[j].id != id.value
  {
    if id.None? || |sets| == 0 then None
    else if sets[0].id == id.value then Some(sets[0])
    else
      var r := FindSet(sets[1..], id);
      assert forall i :: 1 <= i < |sets| ==> sets[i] == sets[1..][i - 1];
      assert r.Some? ==> exists i :: 0 <= i < |sets| && sets[i] == r.value && forall j :: 0 <= j < i ==> sets[j].id != id.value by {
        if r.Some? {
          var i :| 0 <= i < |sets[1..]| && sets[1..][i] == r.value && forall j :: 0 <= j < i ==> sets[1..][j].id != id.value;
          assert sets[i + 1] == r.value && forall j :: 0 <= j < i + 1 ==> sets[j].id != id.value;
        }
      }
      r
  }

  /** A card matches the lowercased query on its front or its back. */
  predicate CardMatches(c: Card, q: string)
  {
    Contains(Lower(c.front), q) || Contains(Lower(c.back), q)
  }

  /** One set with only its cards that match `q`, in their order. */
  function NarrowSet(s: CardSet, q: string): (r: CardSet)
    ensures r.id == s.id && r.name == s.name && r.flashcards.Some?
    ensures IsSubsequence(Cards(r), Cards(s))
    ensures forall k :: 0 <= k < |Cards(r)| ==> CardMatches(Cards(r)[k], q)
    ensures forall k :: 0 <= k < |Cards(s)| && CardMatches(Cards(s)[k], q) ==> Cards(s)[k] in Cards(r)
  {
    s.(flashcards := Some(Filter(Cards(s), c => CardMatches(c, q))))
  }

  /** `filteredSets`: with a blank trimmed search the sets are shown as they
      are; otherwise every set stays, in order, narrowed to its cards that
      match the trimmed, lowercased search. */
  function FilteredSets(sets: seq<CardSet>, search: string): (r: seq<CardSet>)
    ensures Trim(search) == "" ==> r == sets
    ensures |r| == |sets|
    ensures Trim(search) != "" ==> forall i :: 0 <= i < |r| ==> r[i] == NarrowSet(sets[i], Lower(Trim(search)))
  {
    var q := Lower(Trim(search));
    if q == "" then sets
    else seq(|sets|, i requires 0 <= i < |sets| => NarrowSet(sets[i], q))
  }

  /** Searching again for the same text changes nothing more. */
  lemma FilteredSetsIdempotent(sets: seq<CardSet>, search: string)
    ensures FilteredSets(FilteredSets(sets, search), search) == FilteredSets(sets, search)
  {
    var q := Lower(Trim(search));
    if q != "" {
      var once := FilteredSets(sets, search);
      forall i | 0 <= i < |sets|
        ensures FilteredSets(once, search)[i] == once[i]
      {
        FilterIdempotent(Cards(sets[i]), c => CardMatches(c, q));
        assert Cards(once[i]) == Filter(Cards(sets[i]), c => CardMatches(c, q));
      }
    }
  }

  /** `hasAnyCards`: some set still holds a card. */
  predicate HasAnyCards(sets: seq<CardSet>)
  {
    exists i :: 0 <= i < |sets| && sets[i].flashcards.Some? && |sets[i].flashcards.value| > 0
  }

  /** The "no cards" notice: a search never brings up cards the sets do not
      hold, and a search of nothing but whitespace shows cards exactly when
      the sets have some. */
  lemma FilteredSetsHasAnyCards(sets: seq<CardSet>, search: string)
    ensures HasAnyCards(FilteredSets(sets, search)) ==> HasAnyCards(sets)
    ensures AllSpace(search) ==> (HasAnyCards(FilteredSets(sets, search)) <==> HasAnyCards(sets))
  {
    TrimEmptyIffAllSpace(search);
    var r := FilteredSets(sets, search);
    if HasAnyCards(r) && Trim(search) != "" {
      var q := Lower(Trim(search));
      var i :| 0 <= i < |r| && r[i].flashcards.Some? && |r[i].flashcards.value| > 0;
      assert r[i] == NarrowSet(sets[i], q);
      assert |Cards(r[i])| <= |Cards(sets[i])| by {
        assert Cards(r[i]) == Filter(Cards(sets[i]), c => CardMatches(c, q));
      }
      assert sets[i].flashcards.Some? && |sets[i].flashcards.value| > 0;
    }
  }

  /** `shuffleArray`: Fisher-Yates from the back; `j` is any index from 0 to
      `i`, standing for the index the page draws at random. The input is a
      value and is left as it is. */
  method Shuffle<T>(arr: seq<T>) returns (r: seq<T>)
    ensures |r| == |arr|
    ensures multiset(r) == multiset(arr)
    ensures |arr| <= 1 ==> r == arr
  {
    r := arr;
    var i := |r| - 1;
    while i > 0
      invariant |r| == |arr| && i < |r|
      invariant multiset(r) == multiset(arr)
      invariant |arr| <= 1 ==> r == arr
      decreases i
    {
      var j :| 0 <= j <= i;
      SwapKeepsElements(r, i, j);
      r := r[i := r[j]][j := r[i]];
      i := i - 1;
    }
  }

  /** Exchanging two elements neither loses nor adds any. */
  lemma SwapKeepsElements<T>(r: seq<T>, i: nat, j: nat)
    requires i < |r| && j < |r|
    ensures multiset(r[i := r[j]][j := r[i]]) == multiset(r)
  {
    var s := r[i := r[j]];
    assert multiset(s) == multiset(r) - multiset{r[i]} + multiset{r[j]};
    assert multiset(s[j := r[i]]) == multiset(s) - multiset{s[j]} + multiset{r[i]};
  }

  /** The learning carousel: the current card's index and whether it shows its back. */
  datatype Carousel = Carousel(index: nat, flipped: bool)

  /** A new deck starts at its first card, front up. */
  const Start := Carousel(0, false)

  /** The learning deck for the selected set, as set up when the selection or
      the sets change and on "reshuffle": a shuffled copy of the set's cards,
      or no cards, starting at the first card, front up. */
  method OpenDeck(sets: seq<CardSet>, selected: Option<int>) returns (cards: seq<Card>, c: Carousel)
    ensures FindSet(sets, selected).None? ==> cards == []
    ensures FindSet(sets, selected).Some? ==> multiset(cards) == multiset(Cards(FindSet(sets, selected).value))
    ensures c == Start && Valid(c, |cards|)
  {
    var s := FindSet(sets, selected);
    if s.Some? && |Cards(s.value)| > 0 {
      cards := Shuffle(Cards(s.value));
    } else {
      cards := [];
    }
    c := Start;
  }

  /** The index points at a card, or is 0 when there are none. */
  predicate Valid(c: Carousel, len: nat)
  {
    c.index < len || (len == 0 && c.index == 0)
  }

  function Flip(c: Carousel): (r: Carousel)
    ensures r.flipped == !c.flipped && r.index == c.index
  {
    c.(flipped := !c.flipped)
  }

  /** Flipping twice shows the same side of the same card again. */
  lemma FlipTwice(c: Carousel, len: nat)
    requires Valid(c, len)
    ensures Flip(Flip(c)) == c && Valid(Flip(c), len)
  {
  }

  /** `handleNext`: forward with wrap-around from the last card to the first;
      the card shows its front. */
  function Next(c: Carousel, len: nat): (r: Carousel)
    ensures len == 0 ==> r == c
    ensures len > 0 ==> !r.flipped
    ensures Valid(c, len) ==> Valid(r, len)
  {
    if len == 0 then c
    else Carousel(if c.index + 1 < len then c.index + 1 else 0, false)
  }

  /** `handlePrev`: backward with wrap-around from the first card to the last;
      the card shows its front. */
  function Prev(c: Carousel, len: nat): (r: Carousel)
    ensures len == 0 ==> r == c
    ensures len > 0 ==> !r.flipped
    ensures Valid(c, len) ==> Valid(r, len)
  {
    if len == 0 then c
    else Carousel(if c.index >= 1 then c.index - 1 else len - 1, false)
  }

  /** Division with remainder has one answer. */
  lemma ModUnique(x: int, n: int, q: int, r: int)
    requires n > 0 && 0 <= r < n && x == q * n + r
    ensures x % n == r
  {
    var q2 := x / n;
    var r2 := x % n;
    assert q2 * n - q * n == r - r2;
    if q2 > q {
      MulAtLeast(q2 - q, n);
    } else if q2 < q {
      MulAtLeast(q - q2, n);
    }
  }

  lemma {:induction false} MulAtLeast(a: int, n: int)
    requires a >= 1 && n > 0
    ensures a * n >= n
    decreases a
  {
    if a > 1 {
      MulAtLeast(a - 1, n);
      assert a * n == (a - 1) * n + n;
    }
  }

  /** Next and Prev are counting modulo the number of cards. */
  lemma NextPrevModular(c: Carousel, len: nat)
    requires 0 < len && c.index < len
    ensures Next(c, len).index == (c.index + 1) % len
    ensures Prev(c, len).index == (c.index + len - 1) % len
  {
    if c.index + 1 < len {
      ModUnique(c.index + 1, len, 0, c.index + 1);
    } else {
      ModUnique(c.index + 1, len, 1, 0);
    }
    if c.index >= 1 {
      ModUnique(c.index + len - 1, len, 1, c.index - 1);
    } else {
      ModUnique(c.index + len - 1, len, 0, len - 1);
    }
  }

  /** Back after forward, and forward after back, return to the same card. */
  lemma PrevNextInverse(c: Carousel, len: nat)
    requires 0 < len && c.index < len
    ensures Prev(Next(c, len), len).index == c.index
    ensures Next(Prev(c, len), len).index == c.index
  {
  }

  function NextTimes(c: Carousel, len: nat, k: nat): Carousel
  {
    if k == 0 then c else Next(NextTimes(c, len, k - 1), len)
  }

  /** Adding one after reducing modulo `n` is adding one before it. */
  lemma ModAddOne(m: nat, n: int)
    requires n > 0
    ensures (m % n + 1) % n == (m + 1) % n
  {
    var q := m / n;
    var r := m % n;
    assert m == q * n + r;
    if r + 1 < n {
      ModUnique(m + 1, n, q, r + 1);
      ModUnique(r + 1, n, 0, r + 1);
    } else {
      assert (q + 1) * n == q * n + n;
      ModUnique(m + 1, n, q + 1, 0);
      ModUnique(r + 1, n, 1, 0);
    }
  }

  /** Going forward `k` times moves `k` cards on, modulo the deck; `len`
      steps come back to the same card. */
  lemma {:induction false} NextCycles(c: Carousel, len: nat, k: nat)
    requires 0 < len && c.index < len
    ensures NextTimes(c, len, k).index == (c.index + k) % len
    ensures NextTimes(c, len, k).index < len
  {
    if k == 0 {
      ModUnique(c.index, len, 0, c.index);
    } else {
      NextCycles(c, len, k - 1);
      var p := NextTimes(c, len, k - 1);
      NextPrevModular(p, len);
      ModAddOne(c.index + k - 1, len);
    }
  }

  /** `handleRandom`: with fewer than two cards nothing happens; otherwise the
      retry loop ends on some other card, front up. Only its result is
      stated; which card it picks stands for the random draw. */
  method RandomCard(c: Carousel, len: nat) returns (r: Carousel)
    ensures len <= 1 ==> r == c
    ensures len >= 2 ==> r.index != c.index && r.index < len && !r.flipped
  {
    if len <= 1 {
      return c;
    }
    var other: nat := if c.index == 0 then 1 else 0;
    assert other < len && other != c.index;
    var rand: nat :| rand < len && rand != c.index;
    r := Carousel(rand, false);
  }

  /** A slice bound: a negative one counts back from the end, and the result
      is clamped between 0 and `len`. */
  function SliceIndex(x: int, len: nat): (r: nat)
    ensures r <= len
    ensures 0 <= x <= len ==> r == x
  {
    if x < 0 then (if len + x < 0 then 0 else len + x) else if x > len then len else x
  }

  function Min(a: int, b: int): int
  {
    if a <= b then a else b
  }

  /** Clamping never widens a range. */
  lemma SliceIndexNarrows(a: int, b: int, len: nat)
    ensures a <= b ==> SliceIndex(b, len) - SliceIndex(a, len) <= b - a
  {
  }

  function Slice<T>(xs: seq<T>, a: int, b: int): (r: seq<T>)
    ensures a <= b ==> |r| <= b - a
    ensures 0 <= a <= b ==> r == xs[Min(a, |xs|)..Min(b, |xs|)]
  {
    var s := SliceIndex(a, |xs|);
    var e := SliceIndex(b, |xs|);
    SliceIndexNarrows(a, b, |xs|);
    if s < e then xs[s..e] else []
  }

  /** The index of the first item of page `page`. */
  function PageStart(page: int, perPage: int): (s: int)
    ensures page >= 1 && perPage >= 0 ==> s >= 0
  {
    (page - 1) * perPage
  }

  /** `paginate`: page `page` of `perPage` items. For a page from 1 on it is
      the window starting at `(page - 1) * perPage`, cut off at the end of the
      list, so never longer than a page. */
  function Paginate<T>(items: seq<T>, page: int, perPage: int): (r: seq<T>)
    ensures perPage >= 0 ==> |r| <= perPage
    ensures page >= 1 && perPage >= 0 ==>
      r == items[Min(PageStart(page, perPage), |items|)..Min(PageStart(page, perPage) + perPage, |items|)]
  {
    var start := PageStart(page, perPage);
    Slice(items, start, start + perPage)
  }

  lemma PrefixJoin<T>(xs: seq<T>, a: nat, b: nat)
    requires a <= b <= |xs|
    ensures xs[..a] + xs[a..b] == xs[..b]
  {
  }

  /** Pages 1 to `p`, one after another. */
  function PagesUpTo<T>(items: seq<T>, perPage: nat, p: nat): seq<T>
  {
    if p == 0 then [] else PagesUpTo(items, perPage, p - 1) + Paginate(items, p, perPage)
  }

  /** The pages, read in order, give back the list: pages 1 to `p` hold its
      first `p * perPage` items, so enough pages hold all of it. */
  lemma {:induction false} PagesCoverList<T>(items: seq<T>, perPage: nat, p: nat)
    requires perPage > 0
    ensures PagesUpTo(items, perPage, p) == items[..Min(p * perPage, |items|)]
  {
    if p > 0 {
      PagesCoverList(items, perPage, p - 1);
      var lo := PageStart(p, perPage);
      var hi := lo + perPage;
      assert lo == (p - 1) * perPage && hi == p * perPage;
      var a := Min(lo, |items|);
      var b := Min(hi, |items|);
      assert Paginate(items, p, perPage) == items[a..b];
      assert a <= b;
      PrefixJoin(items, a, b);
    }
  }
}

=== FILE: text.dfy ===
/** The JavaScript string operations the front end relies on: `trim`,
    `toLowerCase` / `toUpperCase` (ASCII letters only), `includes`, number to
    text, `join` / `split`, and the code-unit order used to compare "HH:mm" texts. */
module Text {
  import opened Wrappers

  /** A string that may be null is truthy when present and not empty. */
  predicate Truthy(s: Option<string>)
  {
    s.Some? && s.value != ""
  }

  /** WhiteSpace and LineTerminator code points of ECMAScript, which `trim` removes. */
  predicate IsSpace(c: char)
  {
    || c == ' ' || c == '\t' || c == '\n' || c == '\r' || c == '\U{B}' || c == '\U{C}'
    || c == '\U{A0}' || c == '\U{FEFF}' || c == '\U{1680}' || ('\U{2000}' <= c <= '\U{200A}')
    || c == '\U{2028}' || c == '\U{2029}' || c == '\U{202F}' || c == '\U{205F}' || c == '\U{3000}'
  }

  function TrimStart(s: string): (r: string)
    ensures |r| <= |s| && r == s[|s| - |r|..]
    ensures forall i :: 0 <= i < |s| - |r| ==> IsSpace(s[i])
    ensures |r| > 0 ==> !IsSpace(r[0])
  {
    if |s| > 0 && IsSpace(s[0]) then TrimStart(s[1..]) else s
  }

  function TrimEnd(s: string): (r: string)
    ensures |r| <= |s| && r == s[..|r|]
    ensures forall i :: |r| <= i < |s| ==> IsSpace(s[i])
    ensures |r| > 0 ==> !IsSpace(r[|r| - 1])
  {
    if |s| > 0 && IsSpace(s[|s| - 1]) then TrimEnd(s[..|s| - 1]) else s
  }

  /** String.prototype.trim: the infix of `s` left after removing whitespace at both ends. */
  function Trim(s: string): (r: string)
    ensures Contains(s, r)
    ensures |r| > 0 ==> !IsSpace(r[0]) && !IsSpace(r[|r| - 1])
  {
    var a := TrimStart(s);
    var r := TrimEnd(a);
    assert OccursAt(s, r, |s| - |a|);
    r
  }

  /** A string every character of which is whitespace (the empty string included). */
  ghost predicate AllSpace(s: string)
  {
    forall i :: 0 <= i < |s| ==> IsSpace(s[i])
  }

  /** A string trims to nothing exactly when it is made only of whitespace. */
  lemma TrimEmptyIffAllSpace(s: string)
    ensures Trim(s) == "" <==> AllSpace(s)
  {
  }

  function LowerChar(c: char): char
  {
    if 'A' <= c <= 'Z' then (c as int + 32) as char else c
  }

  function UpperChar(c: char): char
  {
    if 'a' <= c <= 'z' then (c as int - 32) as char else c
  }

  /** String.prototype.toLowerCase, restricted to the ASCII letters. */
  function Lower(s: string): (r: string)
    ensures |r| == |s|
    ensures forall i :: 0 <= i < |s| ==> r[i] == LowerChar(s[i])
  {
    seq(|s|, i requires 0 <= i < |s| => LowerChar(s[i]))
  }

  /** String.prototype.toUpperCase, restricted to the ASCII letters. */
  function Upper(s: string): (r: string)
    ensures |r| == |s|
    ensures forall i :: 0 <= i < |s| ==> r[i] == UpperChar(s[i])
  {
    seq(|s|, i requires 0 <= i < |s| => UpperChar(s[i]))
  }

  lemma LowerConcat(a: string, b: string)
    ensures Lower(a + b) == Lower(a) + Lower(b)
  {
  }

  /** `q` occurs in `s` starting at index `i`. */
  ghost predicate OccursAt(s: string, q: string, i: int)
  {
    0 <= i && i + |q| <= |s| && s[i..i + |q|] == q
  }

  /** String.prototype.includes: `q` occurs somewhere in `s`. */
  function Contains(s: string, q: string): (r: bool)
    ensures r <==> exists i :: OccursAt(s, q, i)
    decreases |s|
  {
    if q <= s then
      assert OccursAt(s, q, 0);
      true
    else if |s| == 0 then false
    else
      ContainsStep(s, q);
      Contains(s[1..], q)
  }

  lemma ContainsStep(s: string, q: string)
    requires |s| > 0 && !(q <= s)
    ensures (exists i :: OccursAt(s, q, i)) <==> (exists i :: OccursAt(s[1..], q, i))
  {
    if exists i :: OccursAt(s[1..], q, i) {
      var i :| OccursAt(s[1..], q, i);
      assert OccursAt(s, q, i + 1);
    }
    if exists i :: OccursAt(s, q, i) {
      var i :| OccursAt(s, q, i);
      assert i != 0;
      assert OccursAt(s[1..], q, i - 1);
    }
  }

  /** What occurs in one part of a concatenation occurs in the whole. */
  lemma ContainsInConcat(a: string, b: string, q: string)
    ensures Contains(a, q) ==> Contains(a + b, q)
    ensures Contains(b, q) ==> Contains(a + b, q)
  {
    if Contains(a, q) {
      var i :| OccursAt(a, q, i);
      assert (a + b)[i..i + |q|] == a[i..i + |q|];
      assert OccursAt(a + b, q, i);
    }
    if Contains(b, q) {
      var i :| OccursAt(b, q, i);
      assert (a + b)[|a| + i..|a| + i + |q|] == b[i..i + |q|];
      assert OccursAt(a + b, q, |a| + i);
    }
  }

  /** Code-unit (lexicographic) order of strings, `<=`. */
  predicate StrLe(a: string, b: string)
    decreases |a|
  {
    |a| == 0 || (|b| > 0 && (a[0] < b[0] || (a[0] == b[0] && StrLe(a[1..], b[1..]))))
  }

  function DigitChar(d: nat): char
    requires d < 10
  {
    ('0' as int + d) as char
  }

  /** The decimal text of a natural number, as String(n) prints it. */
  function NatToDecimal(n: nat): (r: string)
    ensures |r| > 0
    ensures forall i :: 0 <= i < |r| ==> '0' <= r[i] <= '9'
  {
    if n < 10 then [DigitChar(n)] else NatToDecimal(n / 10) + [DigitChar(n % 10)]
  }

  /** The value of a string of decimal digits. */
  function DecimalValue(s: string): nat
    requires forall i :: 0 <= i < |s| ==> '0' <= s[i] <= '9'
  {
    if |s| == 0 then 0
    else DecimalValue(s[..|s| - 1]) * 10 + (s[|s| - 1] as int - '0' as int)
  }

  lemma {:induction false} DecimalRoundTrip(n: nat)
    ensures DecimalValue(NatToDecimal(n)) == n
  {
    if n >= 10 {
      DecimalRoundTrip(n / 10);
      var s := NatToDecimal(n);
      assert s[..|s| - 1] == NatToDecimal(n / 10);
    }
  }

  /** Distinct numbers print as distinct texts. */
  lemma DecimalInjective(m: nat, n: nat)
    ensures NatToDecimal(m) == NatToDecimal(n) ==> m == n
  {
    DecimalRoundTrip(m);
    DecimalRoundTrip(n);
  }

  /** String(i) for an integer. */
  function IntToText(i: int): (r: string)
    ensures ',' !in r
  {
    if i < 0 then "-" + NatToDecimal(-i) else NatToDecimal(i)
  }

  /** Array.prototype.join with a one-character separator. */
  function Join(parts: seq<string>, sep: char): string
  {
    if |parts| == 0 then ""
    else if |parts| == 1 then parts[0]
    else parts[0] + [sep] + Join(parts[1..], sep)
  }

  /** String.prototype.split on a one-character separator. */
  function Split(s: string, sep: char): (r: seq<string>)
    ensures |r| > 0
  {
    if |s| == 0 then [""]
    else
      var rest := Split(s[1..], sep);
      if s[0] == sep then [""] + rest else [[s[0]] + rest[0]] + rest[1..]
  }

  lemma {:induction false} SplitPrefix(p: string, tail: string, sep: char)
    requires sep !in p
    ensures Split(p + tail, sep) == [p + Split(tail, sep)[0]] + Split(tail, sep)[1..]
  {
    if |p| > 0 {
      var r := Split(tail, sep);
      var s := p + tail;
      assert s[1..] == p[1..] + tail;
      SplitPrefix(p[1..], tail, sep);
      var rest := Split(s[1..], sep);
      assert rest[0] == p[1..] + r[0] && rest[1..] == r[1..];
      assert s[0] == p[0] && p[0] != sep;
      assert Split(s, sep) == [[p[0]] + rest[0]] + rest[1..];
      assert [p[0]] + (p[1..] + r[0]) == p + r[0];
    } else {
      assert p + tail == tail;
      var r := Split(tail, sep);
      assert p + r[0] == r[0];
      assert r == [r[0]] + r[1..];
    }
  }

  /** Splitting a join recovers the parts, provided no part holds the separator. */
  lemma {:induction false} SplitJoin(parts: seq<string>, sep: char)
    requires |parts| > 0
    requires forall i :: 0 <= i < |parts| ==> sep !in parts[i]
    ensures Split(Join(parts, sep), sep) == parts
  {
    if |parts| == 1 {
      SplitPrefix(parts[0], "", sep);
      assert parts[0] + "" == parts[0];
      assert Split("", sep) == [""];
    } else {
      var rest := Join(parts[1..], sep);
      SplitJoin(parts[1..], sep);
      var tail := [sep] + rest;
      SplitPrefix(parts[0], tail, sep);
      assert Join(parts, sep) == parts[0] + tail;
      assert tail[1..] == rest;
      assert Split(tail, sep) == [""] + parts[1..];
      assert parts[0] + "" == parts[0];
      assert [parts[0]] + parts[1..] == parts;
    }
  }
}

=== FILE: unavailability.dfy ===
/** The tutor's unavailability exceptions: adding one cancels every CONFIRMED
    booking of that tutor it overlaps; deleting one restores nothing. */
module Exceptions {
  import opened Wrappers
  import opened Clock
  import opened Store

  /** A booking the cascade cancels: the tutor's, CONFIRMED, and overlapping [start, end). */
  predicate Hit(b: Booking, tutorId: int, start: int, end: int)
  {
    b.tutorId == tutorId && b.status == Confirmed && Overlaps(b.startAt, b.endAt, start, end)
  }

  /** Ids of the bookings the cascade cancels. */
  function HitIds(bookings: map<int, Booking>, tutorId: int, start: int, end: int): (ids: set<int>)
    ensures forall k :: k in ids <==> k in bookings && Hit(bookings[k], tutorId, start, end)
  {
    set k | k in bookings && Hit(bookings[k], tutorId, start, end)
  }

  /** The batch update: each booking whose id is in `ids` becomes CANCELLED. */
  function CancelAll(bookings: map<int, Booking>, ids: set<int>): (r: map<int, Booking>)
    ensures r.Keys == bookings.Keys
    ensures forall k :: k in ids && k in bookings ==> r[k] == bookings[k].(status := Cancelled)
    ensures forall k :: k in bookings && k !in ids ==> r[k] == bookings[k]
  {
    map k | k in bookings :: if k in ids then bookings[k].(status := Cancelled) else bookings[k]
  }

  /** The request is complete, both dates parse, and start precedes end. */
  predicate ValidRange(startAt: DateField, endAt: DateField)
  {
    startAt.At? && endAt.At? && startAt.ms < endAt.ms
  }

  /** POST /unavailability by a tutor (`userId` is the caller). The insert and the
      cascade form one step here. */
  function AddUnavailability(db: Db, userId: int, startAt: DateField, endAt: DateField, reason: Option<string>): (r: Outcome)
    ensures r.code in {201, 400, 404}
    ensures r.code == 400 <==> !ValidRange(startAt, endAt)
    ensures r.code == 404 <==> ValidRange(startAt, endAt) && userId !in db.tutorProfileOf
    ensures r.code != 201 ==> r.db == db
    ensures r.code == 201 ==>
      var tid := db.tutorProfileOf[userId];
      var start := startAt.ms;
      var end := endAt.ms;
      && r.body.CascadeBody?
      && r.body.unavailability == Unavailability(db.nextExceptionId, tid, start, end, if reason == Some("") then None else reason)
      && r.db.exceptions == db.exceptions[db.nextExceptionId := r.body.unavailability]
      && r.db.nextExceptionId == db.nextExceptionId + 1
      && r.db.bookings.Keys == db.bookings.Keys
      && (forall k :: k in db.bookings && Hit(db.bookings[k], tid, start, end) ==> r.db.bookings[k] == db.bookings[k].(status := Cancelled))
      && (forall k :: k in db.bookings && !Hit(db.bookings[k], tid, start, end) ==> r.db.bookings[k] == db.bookings[k])
      && r.body.cancelledBookings == |HitIds(db.bookings, tid, start, end)|
      && r.db.availability == db.availability && r.db.nextBookingId == db.nextBookingId
      && r.db.studentProfileOf == db.studentProfileOf && r.db.tutorProfileOf == db.tutorProfileOf
  {
    if startAt.Missing? || endAt.Missing? then
      Outcome(400, ErrorBody("Brak zakresu dat"), db)
    else if startAt.Unparseable? || endAt.Unparseable? then
      Outcome(400, ErrorBody("Nieprawidłowe daty"), db)
    else if startAt.ms >= endAt.ms then
      Outcome(400, ErrorBody("startAt musi być przed endAt"), db)
    else if userId !in db.tutorProfileOf then
      Outcome(404, ErrorBody("Brak profilu tutora"), db)
    else
      var tid := db.tutorProfileOf[userId];
      var ex := Unavailability(db.nextExceptionId, tid, startAt.ms, endAt.ms, if reason == Some("") then None else reason);
      var hit := HitIds(db.bookings, tid, startAt.ms, endAt.ms);
      Outcome(201, CascadeBody(ex, |hit|),
        db.(bookings := CancelAll(db.bookings, hit),
            exceptions := db.exceptions[ex.id := ex],
            nextExceptionId := db.nextExceptionId + 1))
  }

  /** The route parameter converted to a number: not a number, or an integer. */
  datatype IdParam = NotANumber | Num(n: int)

  /** DELETE /unavailability/:id by a tutor. */
  function DeleteUnavailability(db: Db, userId: int, id: IdParam): (r: Outcome)
    ensures r.code in {200, 400, 404, 500}
    ensures r.code == 400 <==> id.NotANumber? || id.n == 0
    ensures r.code == 404 <==>
      && id.Num? && id.n != 0
      && (id.n !in db.exceptions
          || (userId in db.tutorProfileOf && db.exceptions[id.n].tutorId != db.tutorProfileOf[userId]))
    ensures r.code != 200 ==> r.db == db
    ensures r.code == 200 ==>
      && id.n in db.exceptions
      && userId in db.tutorProfileOf && db.exceptions[id.n].tutorId == db.tutorProfileOf[userId]
      && r.db == db.(exceptions := db.exceptions - {id.n})
  {
    if id.NotANumber? || id.n == 0 then
      Outcome(400, ErrorBody("Nieprawidłowe ID"), db)
    else if id.n !in db.exceptions then
      Outcome(404, ErrorBody("Nie znaleziono nieobecności"), db)
    else if userId !in db.tutorProfileOf then
      // the handler throws on the missing tutor profile and answers 500
      Outcome(500, ErrorBody("Błąd serwera"), db)
    else if db.exceptions[id.n].tutorId != db.tutorProfileOf[userId] then
      Outcome(404, ErrorBody("Nie znaleziono nieobecności"), db)
    else
      Outcome(200, SuccessBody, db.(exceptions := db.exceptions - {id.n}))
  }

  /** After a successful add, no CONFIRMED booking of the tutor overlaps the
      exception, every other tutor's booking is untouched, and the invariants hold. */
  lemma AddUnavailabilityCascade(db: Db, userId: int, startAt: DateField, endAt: DateField, reason: Option<string>)
    requires WellFormed(db) && NoOverlap(db.bookings) && OneLessonEach(db.bookings)
    ensures var r := AddUnavailability(db, userId, startAt, endAt, reason);
      && WellFormed(r.db) && NoOverlap(r.db.bookings) && OneLessonEach(r.db.bookings)
      && CancellationsKept(db.bookings, r.db.bookings)
      && (r.code == 201 ==>
          && (forall k :: k in r.db.bookings ==> !Hit(r.db.bookings[k], r.body.unavailability.tutorId, startAt.ms, endAt.ms))
          && (forall k :: k in db.bookings && db.bookings[k].tutorId != r.body.unavailability.tutorId ==> r.db.bookings[k] == db.bookings[k]))
  {
  }

  /** Deleting an exception leaves every booking as it was: cancelled bookings stay cancelled. */
  lemma DeleteRestoresNothing(db: Db, userId: int, id: IdParam)
    requires WellFormed(db)
    ensures var r := DeleteUnavailability(db, userId, id);
      && r.db.bookings == db.bookings
      && WellFormed(r.db)
      && (r.code == 200 ==> r.db.exceptions.Keys == db.exceptions.Keys - {id.n})
  {
  }
}

=== FILE: wrappers.dfy ===
/** Optional values, standing in for JavaScript's `null` / `undefined`. */
module Wrappers {

  datatype Option<+T> = None | Some(value: T) {

    /** Returns the value in Some, or a default value if None */
    function GetOr(default: T): T {
      match this
      case Some(v) => v
      case None => default
    }
  }
}
